=== FILE: README.md ===
# HCA burst statistics and the per-token add/remove protocol

This project models the incremental sufficient-statistics engine of the HCA topic-model
sampler, written in Dafny:

- **Burst index** (`BurstIndex`, index.dfy). This is `dmi_init` in `util/misi.c`.
  - A token is *multi* when its word occurs at least twice in its own document.
  - Every repeated word of a document gets a fresh slot id from a global counter.
  - `multiind` lists the slot id of each multi token, document by document.
  - `MI` holds the offset of each document's slice.
  - `MI_max` bounds the local slot numbers.
  - `misi_zero` finds a document's lowest slot id, `mi_base`.
- **Burst state** (`Misi`, misi.dfy). These are the `misi_*` routines of one worker for one document:
  - `Mi`/`Si` per topic, and `Mik`/`Sik` per local slot and topic;
  - build and unbuild;
  - the removal guard `misi_blocked`;
  - the inverse pair `misi_incr`/`misi_decr`;
  - `dmi_rand`, which sets table-indicator (`r`) bits so that every occupied entry has a table event;
  - `dmi_check`.
- **Remove/update protocol** (`Gibbs`, gibbs.dfy). These are `remove_topic` and `update_topic` in `hca/gibbs.c`.
  - A removal decides which table events it implicates.
  - It is rejected untouched on a sole-table-head conflict or a burst block, unless it is forced.
  - Otherwise it removes one customer from the document counts, from the word counts when the word flag is non-negative, from each implicated table (and `Td_` for an implicated document table), and, in bursty mode, from the burst state.
  - An update opens tables on first occupancy or on a draw.
- **Token loop** (`Sweep`, sweep.dfy). This is the per-token control flow of `gibbs_lda`:
  - hold-out handling;
  - skip on rejection;
  - stop after removal on a subtracting pass;
  - install the sampled topic;
  - advance the multi cursor `mi`.

`Grid` (grid.dfy) holds the two-dimensional count-table helpers.

Conventions of the model:
- The corpus is a sequence of documents, each a sequence of word ids. The flat `pw`/`NdTcum` arrays and the packed `multi` bit vector become one sequence per document.
- A document is seen through a `DocView`, which holds:
  - its multi bits and held-out flags;
  - its slice of `multiind`, with `mi` counted from `MI[d]`;
  - its `mi_base`.
- Counts are unbounded integers.
- Draws (`rng_unit`) are parameters:
  - the removal thresholds take the uniform value itself, in [0, 1);
  - the update and `misi_incr` draws take their boolean outcome.
- The table bookkeeping `fix_tableid*`/`unfix_tableid*` is +1/-1 on `Tdt`/`Twt`.
- The source's `assert`s around a decrement (before it, and `Mik >= Sik` after misi_decr's decrements) become preconditions, or, in the token loop, the `Halted` outcome.

Two behaviours of the code that are easy to misread:

- `MI_max` is half the largest *width* (the number of multi tokens of a document), rounded up. It is not the largest word count.
- `misi_zero` reads `multiind[MI[d]]` even when document d has no multi token. For every document after the last one that has a multi token, MI[d] equals the length of `multiind`, so that read is one past the end of the array. The model reads nothing there (`MiZero`), because the value is never used.

## Model

| member | source | states |
|---|---|---|
| BurstIndex.MarkMulti | topicmodelling/HCA-0.61/util/misi.c:293-313 | the multi bit of token l is set iff its word occurs at least twice in its own document |
| BurstIndex.RankOfMulti | topicmodelling/HCA-0.61/util/misi.c:308-310 | the number of multi bits among the first n tokens equals the number of those tokens whose word repeats in the document |
| BurstIndex.ScanFacts | topicmodelling/HCA-0.61/util/misi.c:331-340 | the counting pass counts every word's occurrences exactly; it assigns a slot id to exactly the repeated words; the ids are pairwise distinct, taken from [base, next); at most half the width is used |
| BurstIndex.ScanCounter | topicmodelling/HCA-0.61/util/misi.c:331-337 | the slot counter advances by exactly the number of slot ids the counting pass hands out, so the ids of a document are exactly base .. next - 1 |
| BurstIndex.ScanWidth | topicmodelling/HCA-0.61/util/misi.c:331-340 | +2 at each second occurrence and +1 at each later one sum to the number of tokens whose word repeats, i.e. the number of multi tokens |
| BurstIndex.FillDoc | topicmodelling/HCA-0.61/util/misi.c:293-349 | one document's passes give its multi bits and its width (the number of repeated-word tokens); the slot counter advances by the number of repeated words; two multi tokens share a slot id exactly when they carry the same word, and every id lies in [base, next) |
| BurstIndex.FillPasses | topicmodelling/HCA-0.61/util/misi.c:293-350 | over the corpus the passes give each document's multi bits, the widths, `multiind` as the concatenation of the documents' slot lists, and `dim_Mi` as the number of repeated (document, word) pairs |
| BurstIndex.BaseCountsRepeats | topicmodelling/HCA-0.61/util/misi.c:293-337 | the slot counter of the second pass ends at the first pass's `dim_Mi`: the number of (document, word) pairs whose word occurs at least twice in the document |
| BurstIndex.ScanCountsRepeats | topicmodelling/HCA-0.61/util/misi.c:331-337 | one document's counting pass advances the slot counter by exactly the number of distinct words occurring at least twice in it |
| BurstIndex.MaxWidth | topicmodelling/HCA-0.61/util/misi.c:356-359 | the search loop finds the largest width |
| BurstIndex.PrefixShift | topicmodelling/HCA-0.61/util/misi.c:364-368 | after the in-place prefix sum and shift, MI[0] is 0, MI[d] is the sum of the widths before d, and MI[d+1] - MI[d] is document d's width |
| BurstIndex.DmiInit | topicmodelling/HCA-0.61/util/misi.c:261-368 | the built index has the multi bits of every document, the MI recurrence with MI[0] = 0, the reference `multiind`, `dim_Mi` as the slot counter, and MI_max = (largest width + 1) / 2 |
| BurstIndex.MultiindOffsets | topicmodelling/HCA-0.61/util/misi.c:342-368 | MI[d] is the number of slot entries the documents before d contribute, so document d's slice starts at MI[d] |
| BurstIndex.DocSlice | topicmodelling/HCA-0.61/util/misi.c:342-345 | the slice multiind[MI[d]..MI[d+1]] is exactly document d's slot list, in token order |
| BurstIndex.DocSlotIds | topicmodelling/HCA-0.61/util/misi.c:333-345 | reading slot ids from an array whose slice [lo, hi) is document d's slot list (as `multiind` is at [MI[d], MI[d+1]), see DocSlice), two multi tokens of the document get the same slot id iff they have the same word, and the ids lie in the fresh range [Base(docs before d), Base(docs up to d)) |
| BurstIndex.MiZero | topicmodelling/HCA-0.61/util/misi.c:67-72 | mi_base is an entry of the document's slice, when it is non-empty, and no entry is below it |
| BurstIndex.LocalSlotBound | topicmodelling/HCA-0.61/util/misi.c:352-360 | every local slot number multiind[mi] - mi_base of a document lies in [0, MI_max) |
| Misi.ViewFits | topicmodelling/HCA-0.61/util/misi.c:293-368 | the view of document d built from the index (its multi bits, its slice of `multiind`) with a base that has misi_zero's guarantees fits burst tables of MI_max slot rows, for any hold-out flags and any topics below T |
| Misi.Build | topicmodelling/HCA-0.61/util/misi.c:78-121 | Mi[t] counts the non-held-out tokens of topic t; Si[t] counts those that are not multi or have r set; every slot entry grows by its Mik/Sik counts; in strict mode the entries start at zero and end satisfying Sik <= Mik and (Mik == 0 or Sik > 0) |
| Misi.Unbuild | topicmodelling/HCA-0.61/util/misi.c:126-151 | each entry addressed by a counted multi token is zeroed and every other entry and Mi/Si are kept; in strict mode all entries end at zero |
| Misi.UnbuildAfterBuild | topicmodelling/HCA-0.61/util/misi.c:126-150 | after a build from zero, every entry unbuild does not address is already zero, so unbuild returns the state to all zeros |
| Misi.BlockedIffUnsafe | topicmodelling/HCA-0.61/util/misi.c:153-161 | for a multi token with r set, the guard fires iff decrementing its entry would break the burst invariant (Mik > 1 and Sik == 1) |
| Misi.UnguardedDecrBreaksEntry | topicmodelling/HCA-0.61/util/misi.c:153-179 | concrete case: with Mik = 2 and Sik = 1 the guard blocks the token holding the table event and not its sibling, and the unguarded decrement leaves Mik = 1, Sik = 0 |
| Misi.Decr | topicmodelling/HCA-0.61/util/misi.c:164-179 | Mi[t] and, for a multi token, its Mik entry drop by 1; Si[t] and Sik drop by 1 iff w >= 0; nothing else changes |
| Misi.Incr | topicmodelling/HCA-0.61/util/misi.c:181-200 | a multi token whose draw fails returns -1 and clears r; otherwise w is returned and a multi token gets r set; Mi/Mik grow by 1 and Si/Sik by 1 iff the returned flag is >= 0 |
| Misi.IncrThenDecr | topicmodelling/HCA-0.61/util/misi.c:164-200 | misi_decr called with the flag misi_incr returned undoes every count change, and the entry it decrements is positive |
| Misi.DecrThenIncr | topicmodelling/HCA-0.61/util/misi.c:164-200 | misi_decr followed by misi_incr with the draw replaying the token's r bit restores the state, the token and the word flag |
| Misi.ResampleKeepsCounts | topicmodelling/HCA-0.61/util/misi.c:164-200 | for a counted token (non-multi ones carrying r), misi_decr with the loop's word flag followed by misi_incr under any new topic and any draw leaves the burst state exactly the counts of the re-topicked assignments, and a non-multi token keeps r |
| Misi.DecrKeepsEntry | topicmodelling/HCA-0.61/util/misi.c:168-173 | an unblocked decrement of a consistent entry keeps Sik <= Mik and (Mik == 0 or Sik > 0) |
| Misi.IncrKeepsEntry | topicmodelling/HCA-0.61/util/misi.c:183-195 | an increment keeps a consistent entry consistent when the first token of an empty entry draws a table event |
| Misi.MarkOne | topicmodelling/HCA-0.61/util/misi.c:215-229 | one token of dmi_rand's loop keeps the state equal to the counts of the assignments and changes only that token's r bit; a non-multi counted token gets r set; a multi counted token ends with r set iff it had r or its (slot, topic) entry had no table event yet; exactly the entry of a token that gains r grows its Sik by 1 |
| Misi.DmiRand | topicmodelling/HCA-0.61/util/misi.c:207-234 | topics are kept, r bits are only set, held-out tokens are untouched, non-multi counted tokens end with r set, every occupied (slot, topic) entry has a table event, and the state ends all zero; the number of tokens with r set in a (slot, topic) entry becomes 1 when the entry is occupied and had none, and is kept otherwise; the token marked is the entry's first counted occurrence in token order |
| Misi.DmiCheck | topicmodelling/HCA-0.61/util/misi.c:236-256 | the check passes iff every occupied (slot, topic) entry of the assignments has a table event, and the state ends all zero |
| Gibbs.Decide | topicmodelling/HCA-0.61/hca/gibbs.c:56-83 | a forced decision never rejects; an unforced one rejects iff there is a doc or word sole-table-head conflict or the burst guard fires; an accepted decision implicates a table iff the draw implicates one and it is not a conflict (forced downgrade) |
| Gibbs.Move | topicmodelling/HCA-0.61/hca/gibbs.c:95-160 | moving one customer by delta (-1 in the apply phase of a removal, +1 in an update) moves Ndt and NdT and, for wid >= 0, Nwt and NWt by delta, and Tdt/Twt by delta iff ud/uw; nothing else changes |
| Gibbs.Remove | topicmodelling/HCA-0.61/hca/gibbs.c:48-122 | forced removals are never rejected; rejection happens iff there is a conflict or a burst block on an unforced removal, and returns no state; an accepted removal moves the counts as Move with delta -1, moves Td_ iff ud, applies misi_decr in bursty mode, implicates the doc table of a last customer and the word table of a last word customer |
| Gibbs.Update | topicmodelling/HCA-0.61/hca/gibbs.c:132-162 | Ndt and NdT grow by 1; in bursty mode the word flag is misi_incr's; word counts grow iff that flag is >= 0; a doc table opens iff PYalpha and (first customer or the draw); a word table opens iff the word side is on, the flag is >= 0 and (first word customer or the draw) |
| Gibbs.RemoveKeepsDocTables | topicmodelling/HCA-0.61/hca/gibbs.c:56-104 | an accepted removal, forced or not, keeps 0 <= Tdt <= Ndt and (Ndt == 0 iff Tdt == 0) for the cell |
| Gibbs.RemoveKeepsWordTables | topicmodelling/HCA-0.61/hca/gibbs.c:60-120 | an accepted removal keeps the same table invariant for the (word, topic) cell holding the token |
| Gibbs.UpdateKeepsTables | topicmodelling/HCA-0.61/hca/gibbs.c:134-160 | update_topic keeps both table invariants |
| Gibbs.RemoveThenUpdate | topicmodelling/HCA-0.61/hca/gibbs.c:48-162 | removing a token and re-installing its topic with draws that replay the removal's table events and r bit restores the statistics, Td_, the burst state and the token |
| Gibbs.ForcedRemovalSkipsBurstGuard | topicmodelling/HCA-0.61/hca/gibbs.c:82-89 | concrete case: the removal the burst guard rejects when unforced goes through when forced, leaving an occupied entry with no table event |
| Sweep.Install | topicmodelling/HCA-0.61/hca/gibbs.c:340-360 | the sampled topic is set on token i only; the cursor reaches the token's slot under its new topic; the statistics, Td_, the burst state and the token's r bit are exactly what update_topic (Gibbs.Update) gives for the re-topicked token, and the state stays well formed |
| Sweep.Take | topicmodelling/HCA-0.61/hca/gibbs.c:245-248 | the loop's removal passes remove_topic the word flag that is -1 for a bursty token with r clear; it is never rejected on a subtracting pass; an accepted removal keeps the state well formed |
| Sweep.Visit | topicmodelling/HCA-0.61/hca/gibbs.c:237-360 | a removed-and-resampled token stops the pass iff remove_topic's apply phase would fail one of its assertions: the document cell holds the token (gibbs.c:96), the burst entry holds it (misi.c:168), and the entry still has Mik >= Sik after the decrement (misi.c:173); it is skipped iff the removal is refused (an unforced pass meeting a sole-table-head conflict or the burst guard), with the state unchanged; otherwise the state is the accepted removal's, followed on a non-subtracting pass by Install of the sampled topic |
| Sweep.ResampleMovesCustomer | topicmodelling/HCA-0.61/hca/gibbs.c:245-360 | a resampling that is neither refused nor stopped moves one customer of the document from the old topic to the sampled one: NdT is kept and no other document's counts change |
| Sweep.CountedNeverHalts | topicmodelling/HCA-0.61/util/misi.c:164-173 | a counted token whose document cell holds it, in a state whose burst tables are exactly the counts of the assignments, never fails an apply-phase assertion, so the step never stops the pass |
| Sweep.StepKeepsCounts | topicmodelling/HCA-0.61/hca/gibbs.c:221-365 | on a resampling pass (incremental == 0) in bursty mode, any step of a counted token (non-multi ones carrying r) that does not stop, whether passed over as a held-out word (`fix_doc`), refused or resampled, leaves the burst state equal to the counts of the assignments, and a non-multi token keeps r |
| Sweep.Step | topicmodelling/HCA-0.61/hca/gibbs.c:221-365 | a held-out token is untouched; the token stops the pass iff it is not held out, the pass is not adding only, and one of the three apply-phase assertions (gibbs.c:96, misi.c:168, misi.c:173) would fail; it is skipped iff, in addition, the removal is refused; an adding-only pass (incremental > 0) installs the sampled topic without removing; otherwise the token is visited as in Sweep.Visit |
| Sweep.ResampleSameTopic | topicmodelling/HCA-0.61/hca/gibbs.c:245-360 | a step that resamples a token to its own topic, with replayed table and burst draws, leaves the sampler unchanged |
| Sweep.StepAt | topicmodelling/HCA-0.61/hca/gibbs.c:221-366 | the loop's step on token i takes the outcome the reference pass takes there: a stop makes the whole pass stop, and otherwise the rest of the pass continues from the new state with the cursor moved past a multi token |
| Sweep.Sweep | topicmodelling/HCA-0.61/hca/gibbs.c:207-366 | the loop ends in exactly the state of the reference pass (Step folded over the tokens, held-out tokens passed over, with the cursor advancing once per multi token) and stops iff that pass stops on an apply-phase assertion; the cursor ends at the number of multi tokens visited in bursty mode and stays 0 otherwise; tokens not reached are untouched; a subtracting pass changes no assignment; held-out tokens are untouched |

## Left out

- `dmi_likelihood*`, `dmi_astore`, `dmi_bstore` and their free routines: floating-point likelihoods and memory layout, outside the counting core.
- dmi_init's per-slot `Mi` occurrence array, `Mi_max` and `dim_MiT` (misi.c:314-315, 376-386): used only by the likelihood and store routines.
- `misi_init`/`misi_free`, `yap_quit` and allocation failure: memory management.
- Misi.DmiRand, Misi.DmiCheck: model one document; the loop over a document range (and `dmi_check`'s "all training documents" case) repeats the same per-document work on a fresh state.
- Misi.Decr: the trailing assertion `Mik >= Sik` (misi.c:173) is not a precondition of Decr itself; it is part of Gibbs.ApplyOk, so in the token loop a violation is the `Halted` outcome, and Misi.DecrKeepsEntry states when it holds.
- Misi.IncrKeepsEntry: assumes the first token of an empty entry draws a table event (the collaborator `docfact` supplies that probability); the draw itself is outside the model.
- Misi.Build: both strict-mode checks are preconditions, not run-time aborts: the start check that every slot entry is zero (misi.c:83-91) is `SlotsZero(s0, K, T)`, and the end check that the state is consistent (misi.c:112-119) is `SlotInv`.
- Misi.Unbuild: the strict-mode check that every entry ends at zero is likewise a precondition, not a run-time abort; Misi.UnbuildAfterBuild shows that a build from zero always meets it.
- u16 counters: counts are unbounded, so wrap-around on overflow or on a decrement below zero is not modelled.
- The probability loop of `gibbs_lda` (`topicfact`, `wordfact`, `docfact`, `samplet`, the hold-out probability versions), `logdoc` and its warning, the `Tmax`/`zerod` choke and `comp_Td`: floating-point work by collaborators. The sampled topic and the table draws arrive as `Draws`, and `Td_` as a parameter.
- The `ddG` diagnostics accumulators and `TRACE_WT` logging: output only.
- `rng_unit`: draws are parameters.
- `atomic_incr`/`atomic_decr` and the worker threads: the updates are sequential.
- `hca/lrs.c`, `hca/pctl.h`, `hca/hca.h`, `hca/cache.h`: drivers and declarations.
- Gibbs.RemoveKeepsWordTables: requires the word cell to hold the token (`Nwt > 0`); the source's own assertion of this is commented out (gibbs.c:112).
- Sweep.Step: the `Halted` outcome stands for a failed `assert` in the apply phase (gibbs.c:96, misi.c:168, misi.c:173), which stops the program; Sweep.CountedNeverHalts shows it cannot happen when the burst tables match the assignments.
- Sweep.Sweep: no lemma carries Sweep.StepKeepsCounts and Sweep.CountedNeverHalts over a whole pass; that needs an invariant tying `Ndt` to the document's assignments, which the statistics here do not carry.

=== FILE: gibbs.dfy ===
/**
 * The per-token add/remove protocol of the HCA sampler (hca/gibbs.c):
 * remove_topic decides which table events a removal implicates and either
 * rejects the removal untouched or applies it; update_topic installs a new
 * topic and opens tables on first occupancy or on a supplied draw.
 *
 * Table bookkeeping (`fix_tableid*` / `unfix_tableid*`) is modelled as
 * +1 / -1 on `Tdt` and `Twt`; the atomic counters are plain updates.
 */
module Gibbs {
  import opened Grid
  import opened Misi

  /** The switches of `ddP` the protocol reads; `phiNull` is `ddP.phi==NULL`, `bursty` is PCTL_BURSTY(). */
  datatype Config = Config(pyAlpha: bool, pyBeta: bool, phiNull: bool, bursty: bool)

  /** Whether the word side has its own tables (`PYbeta` with no fixed `phi`). */
  predicate WordSide(cfg: Config)
  {
    cfg.pyBeta && cfg.phiNull
  }

  /**
   * The sufficient statistics `ddS` touched by one token: document-topic
   * counts and tables, per-document totals, word-topic counts and tables,
   * and per-topic word totals.
   */
  datatype Stats = Stats(Ndt: seq<seq<int>>, NdT: seq<int>, Tdt: seq<seq<int>>,
                         Nwt: seq<seq<int>>, NWt: seq<int>, Twt: seq<seq<int>>)

  /** `D` documents, `W` words and `T` topics. */
  predicate StatsShape(st: Stats, D: nat, W: nat, T: nat)
  {
    && |st.Ndt| == D && |st.NdT| == D && |st.Tdt| == D
    && |st.Nwt| == W && |st.Twt| == W && |st.NWt| == T
    && (forall d :: 0 <= d < D ==> |st.Ndt[d]| == T && |st.Tdt[d]| == T)
    && (forall w :: 0 <= w < W ==> |st.Nwt[w]| == T && |st.Twt[w]| == T)
  }

  predicate Sized(st: Stats)
  {
    StatsShape(st, |st.Ndt|, |st.Nwt|, |st.NWt|)
  }

  /** The (document, topic) cell exists. */
  predicate DocCell(st: Stats, did: nat, t: nat)
  {
    Sized(st) && did < |st.Ndt| && t < |st.NWt|
  }

  /** The (word, topic) cell exists, or the word flag is negative (no word side). */
  predicate WordCell(st: Stats, wid: int, t: nat)
  {
    Sized(st) && wid < |st.Nwt| && t < |st.NWt|
  }

  /** The burst state is only read in bursty mode, where token i must address it. */
  predicate BurstReady(cfg: Config, v: DocView, z: seq<Token>, bs: BurstState, i: nat, mi: nat, t: nat)
  {
    i < |z| && (cfg.bursty ==> Addressable(v, bs, i, mi, t) && |z| == |v.multi|)
  }

  /** A uniform draw `rng_unit()` lies in [0, 1). */
  predicate Unit(u: real)
  {
    0.0 <= u < 1.0
  }

  /** Removing a customer from a cell with `n` customers and `m` tables implicates a table: the last customer always, otherwise with probability m/n. */
  predicate Implicated(n: int, m: int, u: real)
  {
    n == 1 || (m as real) > (n as real) * u
  }

  /** The only table of a cell still holding other customers. */
  predicate SoleHead(n: int, m: int)
  {
    n > 1 && m == 1
  }

  predicate DocImplicated(cfg: Config, st: Stats, did: nat, t: nat, u: real)
    requires DocCell(st, did, t)
  {
    cfg.pyAlpha && Implicated(st.Ndt[did][t], st.Tdt[did][t], u)
  }

  predicate WordImplicated(cfg: Config, st: Stats, wid: int, t: nat, u: real)
    requires WordCell(st, wid, t)
  {
    WordSide(cfg) && wid >= 0 && Implicated(st.Nwt[wid][t], st.Twt[wid][t], u)
  }

  /** The removal would take away the table of a cell that keeps other customers. */
  predicate DocConflict(cfg: Config, st: Stats, did: nat, t: nat, u: real)
    requires DocCell(st, did, t)
  {
    DocImplicated(cfg, st, did, t, u) && SoleHead(st.Ndt[did][t], st.Tdt[did][t])
  }

  predicate WordConflict(cfg: Config, st: Stats, wid: int, t: nat, u: real)
    requires WordCell(st, wid, t)
  {
    WordImplicated(cfg, st, wid, t, u) && SoleHead(st.Nwt[wid][t], st.Twt[wid][t])
  }

  /** The outcome of remove_topic's decision phase. */
  datatype Decision = Reject | Go(ud: bool, uw: bool)

  /**
   * The decision phase of remove_topic: the implicated table events, the
   * sole-table-head conflicts (rejected, or downgraded when the removal is
   * forced by `incremental < 0`) and the burst guard (consulted only when
   * the removal is not forced).
   */
  function Decide(cfg: Config, st: Stats, v: DocView, z: seq<Token>, bs: BurstState, i: nat, mi: nat,
                  did: nat, wid: int, t: nat, uDoc: real, uWord: real, incremental: int): (r: Decision)
    requires DocCell(st, did, t) && WordCell(st, wid, t) && BurstReady(cfg, v, z, bs, i, mi, t)
    ensures incremental < 0 ==> r.Go?
    ensures r.Reject? <==>
              incremental >= 0
              && (DocConflict(cfg, st, did, t, uDoc) || WordConflict(cfg, st, wid, t, uWord)
                  || (cfg.bursty && Blocked(v, z, bs, i, mi, t)))
    ensures r.Go? ==> (r.ud <==> DocImplicated(cfg, st, did, t, uDoc) && !DocConflict(cfg, st, did, t, uDoc))
    ensures r.Go? ==> (r.uw <==> WordImplicated(cfg, st, wid, t, uWord) && !WordConflict(cfg, st, wid, t, uWord))
  {
    var ud := DocImplicated(cfg, st, did, t, uDoc);
    var uw := WordImplicated(cfg, st, wid, t, uWord);
    if ud && SoleHead(st.Ndt[did][t], st.Tdt[did][t]) && incremental >= 0 then Reject
    else
      var ud' := if ud && SoleHead(st.Ndt[did][t], st.Tdt[did][t]) then false else ud;
      if uw && SoleHead(st.Nwt[wid][t], st.Twt[wid][t]) && incremental >= 0 then Reject
      else
        var uw' := if uw && SoleHead(st.Nwt[wid][t], st.Twt[wid][t]) then false else uw;
        if cfg.bursty && incremental >= 0 && Blocked(v, z, bs, i, mi, t) then Reject
        else Go(ud', uw')
  }

  /**
   * What the apply phase asserts around its decrements: the cell holds the token, the burst entry holds it too,
   * and after the burst entry loses the token (and its table when the removal has a word side) Mik >= Sik still holds.
   */
  predicate ApplyOk(cfg: Config, st: Stats, v: DocView, bs: BurstState, i: nat, mi: nat, did: nat, wid: int, t: nat)
    requires DocCell(st, did, t)
    requires cfg.bursty ==> Addressable(v, bs, i, mi, t)
  {
    && st.Ndt[did][t] > 0
    && (cfg.bursty && v.multi[i] ==>
          && bs.Mik[Slot(v, mi)][t] > 0
          && bs.Mik[Slot(v, mi)][t] - 1 >= bs.Sik[Slot(v, mi)][t] - (if wid >= 0 then 1 else 0))
  }

  /**
   * `r` is `st` with the token's customer count moved by `dN` (in `Ndt`,
   * `NdT` and, when the word flag is non-negative, `Nwt` and `NWt`), the
   * document table count moved by `dTd`, the word table count by `dTw`,
   * and nothing else changed.
   */
  ghost predicate StatsMoved(st: Stats, r: Stats, did: nat, wid: int, t: nat, dN: int, dTd: int, dTw: int)
    requires DocCell(st, did, t) && WordCell(st, wid, t)
  {
    && r.NdT == st.NdT[did := st.NdT[did] + dN]
    && r.Ndt == Bump(st.Ndt, did, t, dN)
    && r.Tdt == Bump(st.Tdt, did, t, dTd)
    && r.NWt == (if wid >= 0 then st.NWt[t := st.NWt[t] + dN] else st.NWt)
    && r.Nwt == (if wid >= 0 then Bump(st.Nwt, wid, t, dN) else st.Nwt)
    && r.Twt == (if wid >= 0 then Bump(st.Twt, wid, t, dTw) else st.Twt)
    && (wid < 0 ==> dTw == 0)
  }

  /** What StatsMoved says about the token's own cells. */
  lemma CellsMoved(st: Stats, r: Stats, did: nat, wid: int, t: nat, dN: int, dTd: int, dTw: int)
    requires DocCell(st, did, t) && WordCell(st, wid, t)
    requires StatsMoved(st, r, did, wid, t, dN, dTd, dTw)
    ensures r.Ndt[did][t] == st.Ndt[did][t] + dN && r.Tdt[did][t] == st.Tdt[did][t] + dTd
    ensures wid >= 0 ==> r.Nwt[wid][t] == st.Nwt[wid][t] + dN && r.Twt[wid][t] == st.Twt[wid][t] + dTw
  {
  }

  /** A customer taken from topic t0 of document `did` and given to topic t1 leaves the document's total as it was. */
  lemma CustomerMoved(st: Stats, m: Stats, r: Stats, did: nat, w0: int, t0: nat, dTd0: int, dTw0: int,
                      w1: int, t1: nat, dTd1: int, dTw1: int)
    requires DocCell(st, did, t0) && WordCell(st, w0, t0) && StatsMoved(st, m, did, w0, t0, -1, dTd0, dTw0)
    requires DocCell(m, did, t1) && WordCell(m, w1, t1) && StatsMoved(m, r, did, w1, t1, 1, dTd1, dTw1)
    ensures r.NdT == st.NdT
    ensures forall t :: 0 <= t < |st.NWt| ==>
              r.Ndt[did][t] == st.Ndt[did][t] - (if t == t0 then 1 else 0) + (if t == t1 then 1 else 0)
    ensures forall e :: 0 <= e < |st.Ndt| && e != did ==> r.Ndt[e] == st.Ndt[e]
  {
  }

  /** The statistics keep their dimensions. */
  predicate SameShape(st: Stats, r: Stats)
  {
    Sized(r) && |r.Ndt| == |st.Ndt| && |r.Nwt| == |st.Nwt| && |r.NWt| == |st.NWt|
  }

  /**
   * Moving one customer of topic t by `delta` (-1 in remove_topic's apply
   * phase, +1 in update_topic): the document counts always, the word counts
   * when the word flag is non-negative, and a document or word table with it
   * when `ud` or `uw`.
   */
  function Move(st: Stats, did: nat, wid: int, t: nat, delta: int, ud: bool, uw: bool): (r: Stats)
    requires DocCell(st, did, t) && WordCell(st, wid, t)
    requires uw ==> wid >= 0
    ensures SameShape(st, r)
    ensures StatsMoved(st, r, did, wid, t, delta, if ud then delta else 0, if uw then delta else 0)
  {
    var r1 := st.(NdT := st.NdT[did := st.NdT[did] + delta],
                  Ndt := Bump(st.Ndt, did, t, delta),
                  Tdt := if ud then Bump(st.Tdt, did, t, delta) else st.Tdt);
    var r2 := if wid >= 0 then r1.(NWt := st.NWt[t := st.NWt[t] + delta], Nwt := Bump(st.Nwt, wid, t, delta)) else r1;
    if uw then r2.(Twt := Bump(st.Twt, wid, t, delta)) else r2
  }

  /** The result of remove_topic: rejected with nothing touched, or the new statistics, table total, burst state and the applied decisions. */
  datatype Removal = Rejected | Removed(st: Stats, td: int, bs: BurstState, ud: bool, uw: bool)

  /**
   * remove_topic for token i of document `did` with topic t.  `wid` is the
   * word, or -1 when the caller has excluded the word side; `td` is the
   * document's table total `Td_`; `uDoc`/`uWord` are the uniform draws.
   */
  function Remove(cfg: Config, st: Stats, td: int, v: DocView, z: seq<Token>, bs: BurstState, i: nat, mi: nat,
                  did: nat, wid: int, t: nat, uDoc: real, uWord: real, incremental: int): (r: Removal)
    requires DocCell(st, did, t) && WordCell(st, wid, t) && BurstReady(cfg, v, z, bs, i, mi, t)
    requires Decide(cfg, st, v, z, bs, i, mi, did, wid, t, uDoc, uWord, incremental).Go? ==>
               ApplyOk(cfg, st, v, bs, i, mi, did, wid, t)
    ensures incremental < 0 ==> r.Removed?
    ensures r.Rejected? <==>
              incremental >= 0
              && (DocConflict(cfg, st, did, t, uDoc) || WordConflict(cfg, st, wid, t, uWord)
                  || (cfg.bursty && Blocked(v, z, bs, i, mi, t)))
    ensures r.Removed? ==> SameShape(st, r.st) && BurstReady(cfg, v, z, r.bs, i, mi, t)
    ensures r.Removed? ==> StatsMoved(st, r.st, did, wid, t, -1, if r.ud then -1 else 0, if r.uw then -1 else 0)
    ensures r.Removed? ==> r.td == td - (if r.ud then 1 else 0)
    ensures r.Removed? ==> r.bs == (if cfg.bursty then Decr(v, bs, i, mi, t, wid) else bs)
    ensures r.Removed? ==> (r.ud ==> cfg.pyAlpha) && (r.uw ==> WordSide(cfg) && wid >= 0)
    ensures r.Removed? && cfg.pyAlpha && st.Ndt[did][t] == 1 ==> r.ud
    ensures r.Removed? && WordSide(cfg) && wid >= 0 && st.Nwt[wid][t] == 1 ==> r.uw
  {
    var d := Decide(cfg, st, v, z, bs, i, mi, did, wid, t, uDoc, uWord, incremental);
    if d.Reject? then Rejected else Apply(cfg, st, td, v, z, bs, i, mi, did, wid, t, d.ud, d.uw)
  }

  /** The apply phase of remove_topic, once the decision has implicated the tables `ud` and `uw`. */
  function Apply(cfg: Config, st: Stats, td: int, v: DocView, z: seq<Token>, bs: BurstState, i: nat, mi: nat,
                 did: nat, wid: int, t: nat, ud: bool, uw: bool): (r: Removal)
    requires DocCell(st, did, t) && WordCell(st, wid, t) && BurstReady(cfg, v, z, bs, i, mi, t)
    requires ApplyOk(cfg, st, v, bs, i, mi, did, wid, t) && (uw ==> wid >= 0)
    ensures r.Removed? && r.ud == ud && r.uw == uw
    ensures SameShape(st, r.st) && BurstReady(cfg, v, z, r.bs, i, mi, t)
    ensures StatsMoved(st, r.st, did, wid, t, -1, if ud then -1 else 0, if uw then -1 else 0)
    ensures r.td == td - (if ud then 1 else 0)
    ensures r.bs == (if cfg.bursty then Decr(v, bs, i, mi, t, wid) else bs)
  {
    var bs' := if cfg.bursty then Decr(v, bs, i, mi, t, wid) else bs;
    Removed(Move(st, did, wid, t, -1, ud, uw), td - (if ud then 1 else 0), bs', ud, uw)
  }

  /** The result of update_topic: statistics, table total, burst state, the token's new r bit, the word flag used for the word side, and which tables were opened. */
  datatype Updated = Updated(st: Stats, td: int, bs: BurstState, tok: Token, wid: int, docTable: bool, wordTable: bool)

  /**
   * update_topic for token i, whose topic has already been set to t.
   * `openDoc`/`openWord` are the outcomes of the table draws against
   * `ttip`/`wtip`, and `burstDraw` the outcome of misi_incr's draw.
   */
  function Update(cfg: Config, st: Stats, td: int, v: DocView, z: seq<Token>, bs: BurstState, i: nat, mi: nat,
                  did: nat, wid: int, t: nat, openDoc: bool, openWord: bool, burstDraw: bool): (r: Updated)
    requires DocCell(st, did, t) && WordCell(st, wid, t) && BurstReady(cfg, v, z, bs, i, mi, t)
    ensures r.wid == (if cfg.bursty && v.multi[i] && !burstDraw then -1 else wid)
    ensures r.bs == (if cfg.bursty then Incr(v, z, bs, i, mi, t, wid, burstDraw).st else bs)
    ensures r.tok == (if cfg.bursty then Incr(v, z, bs, i, mi, t, wid, burstDraw).tok else z[i])
    ensures r.tok.topic == z[i].topic && (cfg.bursty ==> Shape(r.bs, |bs.Mik|, |bs.Mi|))
    ensures SameShape(st, r.st)
    ensures WordCell(st, r.wid, t)
    ensures StatsMoved(st, r.st, did, r.wid, t, 1, if r.docTable then 1 else 0, if r.wordTable then 1 else 0)
    ensures r.td == td + (if r.docTable then 1 else 0)
    ensures r.docTable <==> cfg.pyAlpha && (st.Ndt[did][t] == 0 || openDoc)
    ensures r.wordTable <==> WordSide(cfg) && r.wid >= 0 && (st.Nwt[r.wid][t] == 0 || openWord)
  {
    var inc := if cfg.bursty then Incr(v, z, bs, i, mi, t, wid, burstDraw) else Incremented(bs, z[i], wid);
    var w := inc.wid;
    var docTable := cfg.pyAlpha && (st.Ndt[did][t] + 1 == 1 || openDoc);
    var wordTable := w >= 0 && WordSide(cfg) && (st.Nwt[w][t] + 1 == 1 || openWord);
    Updated(Move(st, did, w, t, 1, docTable, wordTable), td + (if docTable then 1 else 0),
            inc.st, inc.tok, w, docTable, wordTable)
  }

  /** The word flag gibbs_lda passes to remove_topic: in bursty mode a token whose r bit is clear has no word side. */
  function RemoveWid(cfg: Config, tok: Token, w: nat): (r: int)
    ensures r == w || r == -1
    ensures r < 0 <==> cfg.bursty && !tok.r
  {
    if !cfg.bursty || tok.r then w else -1
  }

  /** The table invariant of a cell with `n` customers and `m` tables: tables never outnumber customers, and a cell is occupied iff it has a table. */
  predicate TablesOk(n: int, m: int)
  {
    0 <= m <= n && (n == 0 <==> m == 0)
  }

  lemma DrawBelow(n: int, u: real)
    requires n > 0 && Unit(u)
    ensures (n as real) * u < n as real
  {
  }

  /** An accepted removal, forced or not, keeps the document cell's table invariant. */
  lemma RemoveKeepsDocTables(cfg: Config, st: Stats, td: int, v: DocView, z: seq<Token>, bs: BurstState, i: nat, mi: nat,
                             did: nat, wid: int, t: nat, uDoc: real, uWord: real, incremental: int)
    requires DocCell(st, did, t) && WordCell(st, wid, t) && BurstReady(cfg, v, z, bs, i, mi, t)
    requires Decide(cfg, st, v, z, bs, i, mi, did, wid, t, uDoc, uWord, incremental).Go? ==>
               ApplyOk(cfg, st, v, bs, i, mi, did, wid, t)
    requires Remove(cfg, st, td, v, z, bs, i, mi, did, wid, t, uDoc, uWord, incremental).Removed?
    requires cfg.pyAlpha && Unit(uDoc) && TablesOk(st.Ndt[did][t], st.Tdt[did][t])
    ensures var r := Remove(cfg, st, td, v, z, bs, i, mi, did, wid, t, uDoc, uWord, incremental);
            TablesOk(r.st.Ndt[did][t], r.st.Tdt[did][t])
  {
    if st.Tdt[did][t] == st.Ndt[did][t] {
      DrawBelow(st.Ndt[did][t], uDoc);
    }
  }

  /** An accepted removal with a word side keeps the word cell's table invariant, when the cell holds the token. */
  lemma RemoveKeepsWordTables(cfg: Config, st: Stats, td: int, v: DocView, z: seq<Token>, bs: BurstState, i: nat, mi: nat,
                              did: nat, wid: int, t: nat, uDoc: real, uWord: real, incremental: int)
    requires DocCell(st, did, t) && WordCell(st, wid, t) && BurstReady(cfg, v, z, bs, i, mi, t)
    requires Decide(cfg, st, v, z, bs, i, mi, did, wid, t, uDoc, uWord, incremental).Go? ==>
               ApplyOk(cfg, st, v, bs, i, mi, did, wid, t)
    requires Remove(cfg, st, td, v, z, bs, i, mi, did, wid, t, uDoc, uWord, incremental).Removed?
    requires WordSide(cfg) && wid >= 0 && Unit(uWord)
    requires st.Nwt[wid][t] > 0 && TablesOk(st.Nwt[wid][t], st.Twt[wid][t])
    ensures var r := Remove(cfg, st, td, v, z, bs, i, mi, did, wid, t, uDoc, uWord, incremental);
            TablesOk(r.st.Nwt[wid][t], r.st.Twt[wid][t])
  {
    if st.Twt[wid][t] == st.Nwt[wid][t] {
      DrawBelow(st.Nwt[wid][t], uWord);
    }
  }

  /** update_topic keeps both table invariants: a first customer always opens a table. */
  lemma UpdateKeepsTables(cfg: Config, st: Stats, td: int, v: DocView, z: seq<Token>, bs: BurstState, i: nat, mi: nat,
                          did: nat, wid: int, t: nat, openDoc: bool, openWord: bool, burstDraw: bool)
    requires DocCell(st, did, t) && WordCell(st, wid, t) && BurstReady(cfg, v, z, bs, i, mi, t)
    ensures var r := Update(cfg, st, td, v, z, bs, i, mi, did, wid, t, openDoc, openWord, burstDraw);
            cfg.pyAlpha && TablesOk(st.Ndt[did][t], st.Tdt[did][t]) ==>
              TablesOk(r.st.Ndt[did][t], r.st.Tdt[did][t])
    ensures var r := Update(cfg, st, td, v, z, bs, i, mi, did, wid, t, openDoc, openWord, burstDraw);
            WordSide(cfg) && wid >= 0 && TablesOk(st.Nwt[wid][t], st.Twt[wid][t]) ==>
              TablesOk(r.st.Nwt[wid][t], r.st.Twt[wid][t])
  {
    var r := Update(cfg, st, td, v, z, bs, i, mi, did, wid, t, openDoc, openWord, burstDraw);
    CellsMoved(st, r.st, did, r.wid, t, 1, if r.docTable then 1 else 0, if r.wordTable then 1 else 0);
  }

  /** Moving a token's counts out and back in with the same table events restores the statistics. */
  lemma StatsBack(st: Stats, m: Stats, r: Stats, did: nat, wid: int, t: nat, dTd: int, dTw: int)
    requires DocCell(st, did, t) && WordCell(st, wid, t) && SameShape(st, m)
    requires StatsMoved(st, m, did, wid, t, -1, -dTd, -dTw)
    requires StatsMoved(m, r, did, wid, t, 1, dTd, dTw)
    ensures r == st
  {
    BumpBack(st.Ndt, did, t, -1);
    BumpBack(st.Tdt, did, t, -dTd);
    assert r.NdT == st.NdT;
    if wid >= 0 {
      BumpBack(st.Nwt, wid, t, -1);
      BumpBack(st.Twt, wid, t, -dTw);
      assert r.NWt == st.NWt;
    }
  }

  /**
   * Undo: removing token i and re-installing the same topic with the same
   * table events (the draws replay the removal's decisions, and the burst
   * draw replays the r bit) restores the statistics, the table total, the
   * burst state and the token.
   */
  lemma RemoveThenUpdate(cfg: Config, st: Stats, td: int, v: DocView, z: seq<Token>, bs: BurstState, i: nat, mi: nat,
                         did: nat, w: nat, t: nat, uDoc: real, uWord: real, incremental: int)
    requires DocCell(st, did, t) && WordCell(st, w, t) && BurstReady(cfg, v, z, bs, i, mi, t)
    requires z[i].topic == t
    requires cfg.bursty && !v.multi[i] ==> z[i].r
    requires Decide(cfg, st, v, z, bs, i, mi, did, RemoveWid(cfg, z[i], w), t, uDoc, uWord, incremental).Go? ==>
               ApplyOk(cfg, st, v, bs, i, mi, did, RemoveWid(cfg, z[i], w), t)
    requires Remove(cfg, st, td, v, z, bs, i, mi, did, RemoveWid(cfg, z[i], w), t, uDoc, uWord, incremental).Removed?
    ensures var r := Remove(cfg, st, td, v, z, bs, i, mi, did, RemoveWid(cfg, z[i], w), t, uDoc, uWord, incremental);
            var u := Update(cfg, r.st, r.td, v, z, r.bs, i, mi, did, w, t, r.ud, r.uw, z[i].r);
            u.st == st && u.td == td && u.bs == bs && u.tok == z[i]
  {
    var wr := RemoveWid(cfg, z[i], w);
    var r := Remove(cfg, st, td, v, z, bs, i, mi, did, wr, t, uDoc, uWord, incremental);
    var u := Update(cfg, r.st, r.td, v, z, r.bs, i, mi, did, w, t, r.ud, r.uw, z[i].r);
    if cfg.bursty {
      DecrThenIncr(v, z, bs, i, mi, t, w);
    }
    Replayed(cfg, st, td, v, z, bs, i, mi, did, w, t, uDoc, uWord, incremental);
    StatsBack(st, r.st, u.st, did, wr, t, if r.ud then 1 else 0, if r.uw then 1 else 0);
  }

  /** Re-installing with replayed draws uses the removal's word flag and opens exactly the tables the removal implicated. */
  lemma Replayed(cfg: Config, st: Stats, td: int, v: DocView, z: seq<Token>, bs: BurstState, i: nat, mi: nat,
                 did: nat, w: nat, t: nat, uDoc: real, uWord: real, incremental: int)
    requires DocCell(st, did, t) && WordCell(st, w, t) && BurstReady(cfg, v, z, bs, i, mi, t)
    requires z[i].topic == t
    requires cfg.bursty && !v.multi[i] ==> z[i].r
    requires Decide(cfg, st, v, z, bs, i, mi, did, RemoveWid(cfg, z[i], w), t, uDoc, uWord, incremental).Go? ==>
               ApplyOk(cfg, st, v, bs, i, mi, did, RemoveWid(cfg, z[i], w), t)
    requires Remove(cfg, st, td, v, z, bs, i, mi, did, RemoveWid(cfg, z[i], w), t, uDoc, uWord, incremental).Removed?
    ensures var r := Remove(cfg, st, td, v, z, bs, i, mi, did, RemoveWid(cfg, z[i], w), t, uDoc, uWord, incremental);
            var u := Update(cfg, r.st, r.td, v, z, r.bs, i, mi, did, w, t, r.ud, r.uw, z[i].r);
            u.wid == RemoveWid(cfg, z[i], w) && u.docTable == r.ud && u.wordTable == r.uw
  {
    var wr := RemoveWid(cfg, z[i], w);
    var r := Remove(cfg, st, td, v, z, bs, i, mi, did, wr, t, uDoc, uWord, incremental);
    CellsMoved(st, r.st, did, wr, t, -1, if r.ud then -1 else 0, if r.uw then -1 else 0);
  }

  /**
   * A forced removal does not consult the burst guard: the first of two
   * occurrences, the only table event of its slot, is rejected when the
   * removal is optional and removed when it is forced, leaving an entry
   * with customers and no table event.
   */
  lemma ForcedRemovalSkipsBurstGuard()
    ensures var cfg := Config(false, false, false, true);
            var v := DocView([true, true], [false, false], [0, 0], 0);
            var z := [Token(0, true), Token(0, false)];
            var bs := BurstState([2], [1], [[2]], [[1]]);
            var st := Stats([[2]], [2], [[0]], [[2]], [2], [[0]]);
            && Remove(cfg, st, 0, v, z, bs, 0, 0, 0, 0, 0, 0.0, 0.0, 0).Rejected?
            && Remove(cfg, st, 0, v, z, bs, 0, 0, 0, 0, 0, 0.0, 0.0, -1).Removed?
            && !EntryOk(Remove(cfg, st, 0, v, z, bs, 0, 0, 0, 0, 0, 0.0, 0.0, -1).bs, 0, 0)
  {
  }
}

=== FILE: grid.dfy ===
/** Two-dimensional count tables (the source's `u16mat` rows) as sequences of rows. */
module Grid {

  /** A row of `n` zero counts. */
  function Zeros(n: nat): (r: seq<int>)
    ensures |r| == n
    ensures forall j :: 0 <= j < n ==> r[j] == 0
  {
    seq(n, j => 0)
  }

  /** The table with entry (i, j) moved by `delta` and every other entry kept. */
  function Bump(m: seq<seq<int>>, i: nat, j: nat, delta: int): (r: seq<seq<int>>)
    requires i < |m| && j < |m[i]|
    ensures |r| == |m|
    ensures forall a :: 0 <= a < |m| ==> |r[a]| == |m[a]|
    ensures forall a, b :: 0 <= a < |m| && 0 <= b < |m[a]| ==>
              r[a][b] == (if a == i && b == j then m[a][b] + delta else m[a][b])
    ensures delta == 0 ==> r == m
  {
    var row := m[i][j := m[i][j] + delta];
    assert delta == 0 ==> row == m[i];
    m[i := row]
  }

  /** The table with entry (i, j) overwritten by `x` and every other entry kept. */
  function Put(m: seq<seq<int>>, i: nat, j: nat, x: int): (r: seq<seq<int>>)
    requires i < |m| && j < |m[i]|
    ensures |r| == |m|
    ensures forall a :: 0 <= a < |m| ==> |r[a]| == |m[a]|
    ensures forall a, b :: 0 <= a < |m| && 0 <= b < |m[a]| ==>
              r[a][b] == (if a == i && b == j then x else m[a][b])
  {
    m[i := m[i][j := x]]
  }

  /** Moving an entry and moving it back restores the table. */
  lemma BumpBack(m: seq<seq<int>>, i: nat, j: nat, delta: int)
    requires i < |m| && j < |m[i]|
    ensures Bump(Bump(m, i, j, delta), i, j, -delta) == m
  {
    assert Bump(Bump(m, i, j, delta), i, j, -delta)[i] == m[i];
  }
}

=== FILE: index.dfy ===
/**
 * Corpus preparation for the burst sub-model (util/misi.c, dmi_init and
 * misi_zero).
 *
 * A token is "multi" (repeated) when its word occurs at least twice in its
 * own document.  Every distinct repeated word of a document gets a slot id
 * drawn from a corpus-wide counter; `multiind` lists, document after
 * document, the slot id of every multi token in token order, and `MI[d]` is
 * the offset of document d's slice of `multiind`.
 *
 * The corpus is a sequence of documents, each a sequence of word ids; the
 * source's flat token array with its cumulative offsets `NdTcum` is the
 * concatenation of these documents, so the per-token bit vector `multi` is
 * kept here as one bit sequence per document.
 */
module BurstIndex {

  type Word = nat

  /** A word counter read with zero as the default, like the source's `wcount[]`. */
  function Get(m: map<Word, nat>, w: Word): nat
  {
    if w in m then m[w] else 0
  }

  /** Number of occurrences of `w` in `s`. */
  function Occ(s: seq<Word>, w: Word): nat
    decreases |s|
  {
    if |s| == 0 then 0 else Occ(s[..|s| - 1], w) + (if s[|s| - 1] == w then 1 else 0)
  }

  /** A word that occurs is an element. */
  lemma {:induction false} OccIn(s: seq<Word>, w: Word)
    requires Occ(s, w) > 0
    ensures w in s
    decreases |s|
  {
    if s[|s| - 1] != w {
      OccIn(s[..|s| - 1], w);
    }
  }

  lemma OccSnoc(s: seq<Word>, x: Word)
    ensures forall w :: Occ(s + [x], w) == Occ(s, w) + (if x == w then 1 else 0)
  {
    assert (s + [x])[..|s|] == s;
  }

  /** Number of `true` bits among the first `n` of `bits`: the multi-token cursor's position. */
  function Rank(bits: seq<bool>, n: nat): nat
    requires n <= |bits|
    decreases n
  {
    if n == 0 then 0 else Rank(bits, n - 1) + (if bits[n - 1] then 1 else 0)
  }

  lemma RankMono(bits: seq<bool>, m: nat, n: nat)
    requires m <= n <= |bits|
    ensures Rank(bits, m) <= Rank(bits, n)
    ensures m < n && bits[m] ==> Rank(bits, m) < Rank(bits, n)
    decreases n - m
  {
    if m < n {
      RankMono(bits, m, n - 1);
    }
  }

  /** Number of positions of `p` whose word occurs at least twice in `f`. */
  function CountRepeated(p: seq<Word>, f: seq<Word>): nat
    decreases |p|
  {
    if |p| == 0 then 0
    else CountRepeated(p[..|p| - 1], f) + (if Occ(f, p[|p| - 1]) >= 2 then 1 else 0)
  }

  /** The multi bits of one document: the bit of token l is set iff its word repeats. */
  ghost predicate MultiBitsOf(doc: seq<Word>, multi: seq<bool>)
  {
    |multi| == |doc| && forall l :: 0 <= l < |doc| ==> (multi[l] <==> Occ(doc, doc[l]) >= 2)
  }

  /**
   * The first and second passes of dmi_init over one document: count every
   * word, then set the bit of each token whose word was counted more than once.
   */
  method MarkMulti(doc: seq<Word>) returns (multi: seq<bool>)
    ensures |multi| == |doc|
    ensures forall l :: 0 <= l < |doc| ==> (multi[l] <==> Occ(doc, doc[l]) >= 2)
  {
    var wcount: map<Word, nat> := map[];
    var l := 0;
    while l < |doc|
      invariant 0 <= l <= |doc|
      invariant forall w :: Get(wcount, w) == Occ(doc[..l], w)
    {
      OccSnoc(doc[..l], doc[l]);
      assert doc[..l + 1] == doc[..l] + [doc[l]];
      wcount := wcount[doc[l] := Get(wcount, doc[l]) + 1];
      l := l + 1;
    }
    assert doc[..|doc|] == doc;
    multi := [];
    l := 0;
    while l < |doc|
      invariant 0 <= l <= |doc|
      invariant |multi| == l
      invariant forall j :: 0 <= j < l ==> (multi[j] <==> Occ(doc, doc[j]) >= 2)
    {
      multi := multi + [Get(wcount, doc[l]) > 1];
      l := l + 1;
    }
  }

  /** The number of multi tokens of a document is the number of its set bits. */
  lemma {:induction false} RankOfMulti(doc: seq<Word>, multi: seq<bool>, n: nat)
    requires MultiBitsOf(doc, multi)
    requires n <= |doc|
    ensures Rank(multi, n) == CountRepeated(doc[..n], doc)
    decreases n
  {
    if n > 0 {
      RankOfMulti(doc, multi, n - 1);
      assert doc[..n][..n - 1] == doc[..n - 1];
    }
  }

  /**
   * The scan state of dmi_init's fill pass over one document: the word
   * counter, the slot id given to each repeated word (`wind[]`), the global
   * slot counter (`dim_Mi`) and this document's width in `multiind` (`MI[i]`
   * before the prefix sum).
   */
  datatype Scan = Scan(wcount: map<Word, nat>, wind: map<Word, nat>, next: nat, width: nat)

  /** One token of the fill pass: +2 at a word's second occurrence, +1 at each later one. */
  function ScanStep(s: Scan, w: Word): Scan
  {
    var c := Get(s.wcount, w) + 1;
    if c == 2 then Scan(s.wcount[w := c], s.wind[w := s.next], s.next + 1, s.width + 2)
    else if c > 2 then Scan(s.wcount[w := c], s.wind, s.next, s.width + 1)
    else Scan(s.wcount[w := c], s.wind, s.next, s.width)
  }

  /** The fill pass over a whole document, starting the slot counter at `base`. */
  function ScanDoc(doc: seq<Word>, base: nat): Scan
    decreases |doc|
  {
    if |doc| == 0 then Scan(map[], map[], base, 0)
    else ScanStep(ScanDoc(doc[..|doc| - 1], base), doc[|doc| - 1])
  }

  /**
   * What the fill pass computes: the counter holds every word's occurrences;
   * repeated words, and only they, get slot ids; the ids are distinct and
   * fresh (between `base` and the final counter); and each costs at least two
   * entries of width.
   */
  lemma {:induction false} ScanFacts(doc: seq<Word>, base: nat)
    ensures forall w :: Get(ScanDoc(doc, base).wcount, w) == Occ(doc, w)
    ensures forall w :: w in ScanDoc(doc, base).wind <==> Occ(doc, w) >= 2
    ensures base <= ScanDoc(doc, base).next
    ensures forall w :: w in ScanDoc(doc, base).wind ==> base <= ScanDoc(doc, base).wind[w] < ScanDoc(doc, base).next
    ensures forall w1, w2 :: w1 in ScanDoc(doc, base).wind && w2 in ScanDoc(doc, base).wind && w1 != w2 ==>
              ScanDoc(doc, base).wind[w1] != ScanDoc(doc, base).wind[w2]
    ensures 2 * (ScanDoc(doc, base).next - base) <= ScanDoc(doc, base).width
    decreases |doc|
  {
    if |doc| > 0 {
      var p := doc[..|doc| - 1];
      var x := doc[|doc| - 1];
      ScanFacts(p, base);
      OccSnoc(p, x);
      assert p + [x] == doc;
    }
  }

  /**
   * The counter advances exactly once per word given a slot id; with the ids
   * distinct and in [base, next), they are exactly base, base + 1, ..., next - 1.
   */
  lemma {:induction false} ScanCounter(doc: seq<Word>, base: nat)
    ensures ScanDoc(doc, base).next == base + |ScanDoc(doc, base).wind|
    decreases |doc|
  {
    if |doc| > 0 {
      var p := doc[..|doc| - 1];
      ScanCounter(p, base);
      ScanFacts(p, base);
    }
  }

  lemma {:induction false} CountRepeatedGrow(p: seq<Word>, f: seq<Word>, x: Word)
    ensures CountRepeated(p, f + [x]) == CountRepeated(p, f) + (if Occ(f, x) == 1 then Occ(p, x) else 0)
    decreases |p|
  {
    if |p| > 0 {
      var q := p[..|p| - 1];
      var y := p[|p| - 1];
      CountRepeatedGrow(q, f, x);
      OccSnoc(f, x);
      OccSnoc(q, y);
      assert q + [y] == p;
    }
  }

  /**
   * A document's width in `multiind` (+2 at each second occurrence, +1 at each
   * later one) is exactly its number of multi tokens.
   */
  lemma {:induction false} ScanWidth(doc: seq<Word>, base: nat)
    ensures ScanDoc(doc, base).width == CountRepeated(doc, doc)
    decreases |doc|
  {
    if |doc| > 0 {
      var p := doc[..|doc| - 1];
      var x := doc[|doc| - 1];
      assert p + [x] == doc;
      ScanWidth(p, base);
      ScanFacts(p, base);
      CountRepeatedGrow(p, p, x);
      OccSnoc(p, x);
    }
  }

  /** The third pass of dmi_init over one document: the slot id of every token whose word has one. */
  function SlotsOf(doc: seq<Word>, wind: map<Word, nat>): seq<nat>
    decreases |doc|
  {
    if |doc| == 0 then []
    else SlotsOf(doc[..|doc| - 1], wind) + (if doc[|doc| - 1] in wind then [wind[doc[|doc| - 1]]] else [])
  }

  /** The slot id met by the multi cursor at a multi token is the slot id of that token's word. */
  lemma {:induction false} SlotsAt(doc: seq<Word>, multi: seq<bool>, wind: map<Word, nat>, n: nat)
    requires |multi| == |doc|
    requires forall l :: 0 <= l < |doc| ==> (multi[l] <==> doc[l] in wind)
    requires n <= |doc|
    ensures |SlotsOf(doc[..n], wind)| == Rank(multi, n)
    ensures forall l :: 0 <= l < n && multi[l] ==>
              Rank(multi, l) < |SlotsOf(doc[..n], wind)| && SlotsOf(doc[..n], wind)[Rank(multi, l)] == wind[doc[l]]
    decreases n
  {
    if n > 0 {
      SlotsAt(doc, multi, wind, n - 1);
      assert doc[..n][..n - 1] == doc[..n - 1];
      forall l | 0 <= l < n - 1 && multi[l]
        ensures Rank(multi, l) < |SlotsOf(doc[..n], wind)| && SlotsOf(doc[..n], wind)[Rank(multi, l)] == wind[doc[l]]
      {
        RankMono(multi, l, n - 1);
      }
    }
  }

  /** Every slot id listed for a document lies in the document's counter range. */
  lemma {:induction false} SlotsRange(doc: seq<Word>, wind: map<Word, nat>, lo: nat, hi: nat)
    requires forall w :: w in wind ==> lo <= wind[w] < hi
    ensures forall j :: 0 <= j < |SlotsOf(doc, wind)| ==> lo <= SlotsOf(doc, wind)[j] < hi
    decreases |doc|
  {
    if |doc| > 0 {
      SlotsRange(doc[..|doc| - 1], wind, lo, hi);
    }
  }

  /** The global slot counter after the documents `docs` (the source's `dim_Mi`). */
  function Base(docs: seq<seq<Word>>): nat
    decreases |docs|
  {
    if |docs| == 0 then 0
    else ScanDoc(docs[|docs| - 1], Base(docs[..|docs| - 1])).next
  }

  /** The distinct words that occur at least twice in `doc`. */
  function RepeatedWords(doc: seq<Word>): set<Word>
  {
    set w | w in doc && Occ(doc, w) >= 2
  }

  /** Number of (document, repeated word) pairs of a corpus. */
  function RepeatedPairs(docs: seq<seq<Word>>): nat
    decreases |docs|
  {
    if |docs| == 0 then 0
    else RepeatedPairs(docs[..|docs| - 1]) + |RepeatedWords(docs[|docs| - 1])|
  }

  /** The slot counter advances once per (document, repeated word) pair, so `dim_Mi` counts those pairs. */
  lemma {:induction false} BaseCountsRepeats(docs: seq<seq<Word>>)
    ensures Base(docs) == RepeatedPairs(docs)
    decreases |docs|
  {
    if |docs| > 0 {
      var p := docs[..|docs| - 1];
      var doc := docs[|docs| - 1];
      BaseCountsRepeats(p);
      ScanCountsRepeats(doc, Base(p));
    }
  }

  /** One document's scan advances the slot counter once per repeated word. */
  lemma ScanCountsRepeats(doc: seq<Word>, base: nat)
    ensures ScanDoc(doc, base).next == base + |RepeatedWords(doc)|
  {
    ScanFacts(doc, base);
    ScanCounter(doc, base);
    var wind := ScanDoc(doc, base).wind;
    forall w
      ensures w in wind.Keys <==> w in RepeatedWords(doc)
    {
      if Occ(doc, w) >= 2 {
        OccIn(doc, w);
      }
    }
    assert wind.Keys == RepeatedWords(doc);
  }

  /** The scan of document d, started where the previous documents left the counter. */
  function DocScan(docs: seq<seq<Word>>, d: nat): Scan
    requires d < |docs|
  {
    ScanDoc(docs[d], Base(docs[..d]))
  }

  /** Reference definition of `multiind`: every document's slot ids, in corpus order. */
  function Multiind(docs: seq<seq<Word>>): seq<nat>
    decreases |docs|
  {
    if |docs| == 0 then []
    else
      var p := docs[..|docs| - 1];
      var doc := docs[|docs| - 1];
      Multiind(p) + SlotsOf(doc, ScanDoc(doc, Base(p)).wind)
  }

  /** Extending the corpus by document d extends the slot counter, the widths and the
      multi-index table by exactly what document d's scan contributes. */
  lemma CorpusSnoc(docs: seq<seq<Word>>, d: nat)
    requires d < |docs|
    ensures Base(docs[..d + 1]) == DocScan(docs, d).next
    ensures Widths(docs[..d + 1]) == Widths(docs[..d]) + [CountRepeated(docs[d], docs[d])]
    ensures Multiind(docs[..d + 1]) == Multiind(docs[..d]) + SlotsOf(docs[d], DocScan(docs, d).wind)
  {
    assert docs[..d + 1][..d] == docs[..d];
  }

  /** Sum of a sequence of widths. */
  function Sum(s: seq<nat>): nat
    decreases |s|
  {
    if |s| == 0 then 0 else Sum(s[..|s| - 1]) + s[|s| - 1]
  }

  /** Largest element of a sequence of widths (zero when empty). */
  function MaxOf(s: seq<nat>): (m: nat)
    ensures forall i :: 0 <= i < |s| ==> s[i] <= m
    ensures |s| > 0 ==> m in s
    decreases |s|
  {
    if |s| == 0 then 0
    else
      var m' := MaxOf(s[..|s| - 1]);
      if m' < s[|s| - 1] then s[|s| - 1] else m'
  }

  /** Number of multi tokens of each document, which is its width in `multiind`. */
  function Widths(docs: seq<seq<Word>>): (r: seq<nat>)
    ensures |r| == |docs|
    decreases |docs|
  {
    if |docs| == 0 then []
    else Widths(docs[..|docs| - 1]) + [CountRepeated(docs[|docs| - 1], docs[|docs| - 1])]
  }

  lemma {:induction false} WidthsAt(docs: seq<seq<Word>>, d: nat)
    requires d < |docs|
    ensures |Widths(docs)| == |docs|
    ensures Widths(docs)[d] == CountRepeated(docs[d], docs[d])
    decreases |docs|
  {
    if d < |docs| - 1 {
      WidthsAt(docs[..|docs| - 1], d);
    } else if |docs| > 1 {
      WidthsAt(docs[..|docs| - 1], 0);
    }
  }

  /**
   * The prefix-sum loops of dmi_init: an in-place inclusive prefix sum over
   * the first D entries, then a shift by one place and MI[0] := 0.  The result
   * is the exclusive prefix sum, so document d's slice starts at MI[d] and has
   * `width[d]` entries.
   */
  method PrefixShift(width: seq<nat>) returns (MI: seq<nat>)
    ensures |MI| == |width| + 1
    ensures MI[0] == 0
    ensures forall d :: 0 <= d <= |width| ==> MI[d] == Sum(width[..d])
    ensures forall d :: 0 <= d < |width| ==> MI[d + 1] == MI[d] + width[d]
  {
    var D := |width|;
    MI := width + [0];
    var i := 1;
    if D > 0 {
      assert width[..1][..0] == width[..0];
      while i < D
        invariant 1 <= i <= D
        invariant |MI| == D + 1
        invariant forall j :: 0 <= j < i ==> MI[j] == Sum(width[..j + 1])
        invariant forall j :: i <= j < D ==> MI[j] == width[j]
      {
        assert width[..i + 1][..i] == width[..i];
        MI := MI[i := MI[i] + MI[i - 1]];
        i := i + 1;
      }
    }
    i := D;
    while i > 0
      invariant 0 <= i <= D
      invariant |MI| == D + 1
      invariant forall j :: 0 <= j < i ==> MI[j] == Sum(width[..j + 1])
      invariant forall j :: i < j <= D ==> MI[j] == Sum(width[..j])
    {
      MI := MI[i := MI[i - 1]];
      i := i - 1;
    }
    MI := MI[0 := 0];
    forall d | 0 <= d < D
      ensures MI[d + 1] == MI[d] + width[d]
    {
      assert width[..d + 1][..d] == width[..d];
    }
  }

  /** The read-only burst index built once for the corpus. */
  datatype Index = Index(multi: seq<seq<bool>>, multiind: seq<nat>, MI: seq<nat>, dimMi: nat, MIMax: nat)

  /** `MI` steps by each document's width from 0, and `multiind` is the reference list of slot ids. */
  ghost predicate Listed(docs: seq<seq<Word>>, ix: Index)
  {
    && |ix.MI| == |docs| + 1
    && ix.MI[0] == 0
    && (forall d :: 0 <= d < |docs| ==> ix.MI[d + 1] == ix.MI[d] + CountRepeated(docs[d], docs[d]))
    && ix.multiind == Multiind(docs)
  }

  /**
   * `MI` steps by each document's width from 0, the slices it marks tile
   * `multiind`, and document d's slice is its list of slot ids.
   */
  ghost predicate Located(docs: seq<seq<Word>>, ix: Index)
  {
    && |ix.MI| == |docs| + 1
    && ix.MI[0] == 0
    && (forall d :: 0 <= d < |docs| ==> ix.MI[d + 1] == ix.MI[d] + CountRepeated(docs[d], docs[d]))
    && ix.MI[|docs|] == |ix.multiind|
    && (forall d :: 0 <= d <= |docs| ==> ix.MI[d] <= |ix.multiind|)
    && (forall d {:trigger DocScan(docs, d)} :: 0 <= d < |docs| ==>
          ix.multiind[ix.MI[d]..ix.MI[d + 1]] == SlotsOf(docs[d], DocScan(docs, d).wind))
  }

  /** Every document has its multi bits. */
  ghost predicate Marked(docs: seq<seq<Word>>, ix: Index)
  {
    && |ix.multi| == |docs|
    && (forall d {:trigger ix.multi[d]} :: 0 <= d < |docs| ==> MultiBitsOf(docs[d], ix.multi[d]))
  }

  /** What dmi_init promises about the index it builds for `docs`. */
  ghost predicate IndexOf(docs: seq<seq<Word>>, ix: Index)
  {
    && Marked(docs, ix)
    && Located(docs, ix)
    && ix.dimMi == Base(docs)
    && ix.MIMax == (MaxOf(Widths(docs)) + 1) / 2
  }

  /**
   * The passes of dmi_init over one document, with the slot counter at `base`
   * on entry.  The counter advances once per repeated word, and the slot list
   * gives the k-th multi token an id in [base, next) that it shares exactly
   * with the multi tokens carrying the same word.
   */
  method FillDoc(doc: seq<Word>, base: nat) returns (bits: seq<bool>, slots: seq<nat>, width: nat, next: nat)
    ensures MultiBitsOf(doc, bits)
    ensures width == CountRepeated(doc, doc)
    ensures slots == SlotsOf(doc, ScanDoc(doc, base).wind)
    ensures next == ScanDoc(doc, base).next
    ensures next == base + |RepeatedWords(doc)|
    ensures forall l1, l2 :: 0 <= l1 < |doc| && 0 <= l2 < |doc| && bits[l1] && bits[l2] ==>
              && Rank(bits, l1) < |slots| && Rank(bits, l2) < |slots|
              && (slots[Rank(bits, l1)] == slots[Rank(bits, l2)] <==> doc[l1] == doc[l2])
              && base <= slots[Rank(bits, l1)] < next
  {
    bits := MarkMulti(doc);
    var sc := ScanDoc(doc, base);
    ScanWidth(doc, base);
    ScanCountsRepeats(doc, base);
    slots := SlotsOf(doc, sc.wind);
    width := sc.width;
    next := sc.next;
    forall l1, l2 | 0 <= l1 < |doc| && 0 <= l2 < |doc| && bits[l1] && bits[l2]
      ensures Rank(bits, l1) < |slots| && Rank(bits, l2) < |slots|
      ensures slots[Rank(bits, l1)] == slots[Rank(bits, l2)] <==> doc[l1] == doc[l2]
      ensures base <= slots[Rank(bits, l1)] < next
    {
      DocSlotsOfTokens(doc, bits, base, l1, l2);
    }
  }

  /**
   * The counting, marking and filling passes of dmi_init, document by
   * document, with the slot counter `dim_Mi` carried across documents.
   */
  method FillPasses(docs: seq<seq<Word>>) returns (multi: seq<seq<bool>>, multiind: seq<nat>, width: seq<nat>, dimMi: nat)
    ensures |multi| == |docs|
    ensures forall d :: 0 <= d < |docs| ==> MultiBitsOf(docs[d], multi[d])
    ensures width == Widths(docs)
    ensures multiind == Multiind(docs)
    ensures dimMi == Base(docs) && dimMi == RepeatedPairs(docs)
  {
    multi := [];
    multiind := [];
    width := [];
    dimMi := 0;
    var i := 0;
    while i < |docs|
      invariant 0 <= i <= |docs|
      invariant |multi| == i
      invariant forall d :: 0 <= d < i ==> MultiBitsOf(docs[d], multi[d])
      invariant width == Widths(docs[..i])
      invariant multiind == Multiind(docs[..i])
      invariant dimMi == Base(docs[..i])
    {
      var bits, slots, w, next := FillDoc(docs[i], dimMi);
      CorpusSnoc(docs, i);
      multi := multi + [bits];
      width := width + [w];
      multiind := multiind + slots;
      dimMi := next;
      i := i + 1;
    }
    assert docs[..|docs|] == docs;
    BaseCountsRepeats(docs);
  }

  /** The `MI_max` search loop of dmi_init: the largest width. */
  method MaxWidth(width: seq<nat>) returns (m: nat)
    ensures m == MaxOf(width)
  {
    m := 0;
    var i := 0;
    while i < |width|
      invariant 0 <= i <= |width|
      invariant m == MaxOf(width[..i])
    {
      assert width[..i + 1][..i] == width[..i];
      if m < width[i] {
        m := width[i];
      }
      i := i + 1;
    }
    assert width[..|width|] == width;
  }

  /**
   * dmi_init: mark the multi tokens, give each repeated word of each document
   * a fresh slot id, list the slot ids in `multiind`, size the per-document
   * slot tables (`MI_max`, half the largest width rounded up) and turn the
   * widths into offsets.
   */
  method DmiInit(docs: seq<seq<Word>>) returns (ix: Index)
    ensures IndexOf(docs, ix)
  {
    var multi, multiind, width, dimMi := FillPasses(docs);
    var maxw := MaxWidth(width);
    var MI := PrefixShift(width);
    forall d | 0 <= d < |docs|
      ensures MI[d + 1] == MI[d] + CountRepeated(docs[d], docs[d])
    {
      WidthsAt(docs, d);
    }
    ix := Index(multi, multiind, MI, dimMi, (maxw + 1) / 2);
    ListedLocated(docs, ix);
  }

  /** The reference `multiind`, cut at the offsets `MI`, gives every document its own slot list. */
  lemma ListedLocated(docs: seq<seq<Word>>, ix: Index)
    requires Listed(docs, ix)
    ensures Located(docs, ix)
  {
    MultiindOffsets(docs, ix.MI, |docs|);
    assert docs[..|docs|] == docs;
    forall d | 0 <= d <= |docs|
      ensures ix.MI[d] <= |ix.multiind|
    {
      if d < |docs| {
        DocSlice(docs, ix, d);
      }
    }
    forall d | 0 <= d < |docs|
      ensures ix.multiind[ix.MI[d]..ix.MI[d + 1]] == SlotsOf(docs[d], DocScan(docs, d).wind)
    {
      DocSlice(docs, ix, d);
    }
  }

  /** `Multiind` of a shorter prefix of the corpus is a prefix of `Multiind` of a longer one. */
  lemma {:induction false} MultiindPrefix(docs: seq<seq<Word>>, d1: nat, d2: nat)
    requires d1 <= d2 <= |docs|
    ensures Multiind(docs[..d1]) <= Multiind(docs[..d2])
    decreases d2 - d1
  {
    if d1 < d2 {
      MultiindPrefix(docs, d1, d2 - 1);
      MultiindGrows(docs, d2 - 1);
      PrefixTrans(Multiind(docs[..d1]), Multiind(docs[..d2 - 1]), Multiind(docs[..d2]));
    }
  }

  lemma PrefixTrans(a: seq<nat>, b: seq<nat>, c: seq<nat>)
    requires a <= b && b <= c
    ensures a <= c
  {
  }

  lemma MultiindGrows(docs: seq<seq<Word>>, d: nat)
    requires d < |docs|
    ensures Multiind(docs[..d]) <= Multiind(docs[..d + 1])
  {
    assert docs[..d + 1][..d] == docs[..d];
  }

  lemma {:induction false} SlotsLength(p: seq<Word>, f: seq<Word>, wind: map<Word, nat>)
    requires forall w :: w in wind <==> Occ(f, w) >= 2
    ensures |SlotsOf(p, wind)| == CountRepeated(p, f)
    decreases |p|
  {
    if |p| > 0 {
      SlotsLength(p[..|p| - 1], f, wind);
    }
  }

  /** `MI[d]` is where document d's slice of `multiind` starts. */
  lemma {:induction false} MultiindOffsets(docs: seq<seq<Word>>, MI: seq<nat>, d: nat)
    requires |MI| == |docs| + 1 && MI[0] == 0
    requires forall j :: 0 <= j < |docs| ==> MI[j + 1] == MI[j] + CountRepeated(docs[j], docs[j])
    requires d <= |docs|
    ensures |Multiind(docs[..d])| == MI[d]
    decreases d
  {
    if d > 0 {
      MultiindOffsets(docs, MI, d - 1);
      CorpusSnoc(docs, d - 1);
      ScanFacts(docs[d - 1], Base(docs[..d - 1]));
      SlotsLength(docs[d - 1], docs[d - 1], DocScan(docs, d - 1).wind);
    }
  }

  /** Document d's slice of `multiind` is the list of its slot ids. */
  lemma DocSlice(docs: seq<seq<Word>>, ix: Index, d: nat)
    requires Listed(docs, ix)
    requires d < |docs|
    ensures ix.MI[d] <= ix.MI[d + 1] <= |ix.multiind|
    ensures ix.multiind[ix.MI[d]..ix.MI[d + 1]] == SlotsOf(docs[d], DocScan(docs, d).wind)
  {
    MultiindOffsets(docs, ix.MI, d);
    MultiindOffsets(docs, ix.MI, d + 1);
    MultiindSlice(docs, d);
    var a := |Multiind(docs[..d])|;
    var S := SlotsOf(docs[d], DocScan(docs, d).wind);
    assert ix.MI[d] == a && ix.MI[d + 1] == a + |S|;
    assert ix.multiind[a..a + |S|] == S;
  }

  /** Document d's slot list sits in the corpus's `multiind` right after the lists of the documents before it. */
  lemma MultiindSlice(docs: seq<seq<Word>>, d: nat)
    requires d < |docs|
    ensures var A := Multiind(docs[..d]);
            var S := SlotsOf(docs[d], DocScan(docs, d).wind);
            && |Multiind(docs[..d + 1])| == |A| + |S| <= |Multiind(docs)|
            && Multiind(docs)[|A|..|A| + |S|] == S
  {
    var A := Multiind(docs[..d]);
    var S := SlotsOf(docs[d], DocScan(docs, d).wind);
    CorpusSnoc(docs, d);
    MultiindPrefix(docs, d + 1, |docs|);
    assert docs[..|docs|] == docs;
    SliceOfPrefix(Multiind(docs), A, S);
  }

  lemma SliceOfPrefix(m: seq<nat>, A: seq<nat>, S: seq<nat>)
    requires A + S <= m
    ensures m[|A|..|A| + |S|] == S
  {
    forall j | 0 <= j < |S|
      ensures m[|A|..|A| + |S|][j] == S[j]
    {
      assert m[|A| + j] == (A + S)[|A| + j];
    }
  }

  /** Slot ids of one document's multi tokens, read through the multi cursor. */
  lemma DocSlotsOfTokens(doc: seq<Word>, multi: seq<bool>, base: nat, l1: nat, l2: nat)
    requires MultiBitsOf(doc, multi)
    requires l1 < |doc| && l2 < |doc| && multi[l1] && multi[l2]
    ensures Rank(multi, l1) < |SlotsOf(doc, ScanDoc(doc, base).wind)|
    ensures Rank(multi, l2) < |SlotsOf(doc, ScanDoc(doc, base).wind)|
    ensures SlotsOf(doc, ScanDoc(doc, base).wind)[Rank(multi, l1)] == SlotsOf(doc, ScanDoc(doc, base).wind)[Rank(multi, l2)]
            <==> doc[l1] == doc[l2]
    ensures base <= SlotsOf(doc, ScanDoc(doc, base).wind)[Rank(multi, l1)] < ScanDoc(doc, base).next
  {
    var sc := ScanDoc(doc, base);
    ScanFacts(doc, base);
    SlotsAt(doc, multi, sc.wind, |doc|);
    assert doc[..|doc|] == doc;
  }

  /**
   * What the index dmi_init builds says about document d alone: its
   * offsets delimit a slice of `multiind` that is its slot list, and its
   * multi bits are set.
   */
  lemma IndexedDoc(docs: seq<seq<Word>>, ix: Index, d: nat)
    requires IndexOf(docs, ix)
    requires d < |docs|
    ensures ix.MI[d] <= ix.MI[d + 1] <= |ix.multiind|
    ensures ix.multiind[ix.MI[d]..ix.MI[d + 1]] == SlotsOf(docs[d], DocScan(docs, d).wind)
    ensures MultiBitsOf(docs[d], ix.multi[d])
  {
  }

  /**
   * Within a document, two multi tokens get the same slot id iff they carry
   * the same word, and every id is a fresh value of the global counter: at
   * least the counter before the document and below the counter after it.
   * The ids are read from any array whose slice [lo, hi) is the document's
   * slot list, as `multiind` is at [MI[d], MI[d + 1]) (IndexedDoc).
   */
  lemma DocSlotIds(docs: seq<seq<Word>>, d: nat, multi: seq<bool>, a: seq<nat>, lo: nat, hi: nat, l1: nat, l2: nat)
    requires d < |docs| && MultiBitsOf(docs[d], multi)
    requires l1 < |docs[d]| && l2 < |docs[d]| && multi[l1] && multi[l2]
    requires lo <= hi <= |a| && a[lo..hi] == SlotsOf(docs[d], DocScan(docs, d).wind)
    ensures lo + Rank(multi, l1) < hi && lo + Rank(multi, l2) < hi
    ensures a[lo + Rank(multi, l1)] == a[lo + Rank(multi, l2)] <==> docs[d][l1] == docs[d][l2]
    ensures Base(docs[..d]) <= a[lo + Rank(multi, l1)] < Base(docs[..d + 1])
  {
    var S := SlotsOf(docs[d], DocScan(docs, d).wind);
    DocSlotsOfTokens(docs[d], multi, Base(docs[..d]), l1, l2);
    SliceAt(a, lo, hi, S, Rank(multi, l1));
    SliceAt(a, lo, hi, S, Rank(multi, l2));
    CorpusSnoc(docs, d);
  }

  lemma SliceAt(a: seq<nat>, lo: nat, hi: nat, S: seq<nat>, j: nat)
    requires lo <= hi <= |a| && a[lo..hi] == S && j < |S|
    ensures lo + j < hi && a[lo + j] == S[j]
  {
  }

  /**
   * misi_zero's search for the lowest slot id of document d.  When the
   * document has no multi token the source still reads `multiind[MI[d]]`,
   * which may lie past the array; the value is never used, and it is 0 here.
   */
  method MiZero(ix: Index, d: nat) returns (base: nat)
    requires d + 1 < |ix.MI|
    requires ix.MI[d] <= ix.MI[d + 1] <= |ix.multiind|
    ensures ix.MI[d] < ix.MI[d + 1] ==> base in ix.multiind[ix.MI[d]..ix.MI[d + 1]]
    ensures forall mi :: ix.MI[d] <= mi < ix.MI[d + 1] ==> base <= ix.multiind[mi]
  {
    var mi := ix.MI[d];
    base := if mi < |ix.multiind| then ix.multiind[mi] else 0;
    while mi < ix.MI[d + 1]
      invariant ix.MI[d] <= mi <= ix.MI[d + 1]
      invariant ix.MI[d] < ix.MI[d + 1] ==> base in ix.multiind[ix.MI[d]..ix.MI[d + 1]]
      invariant forall j :: ix.MI[d] <= j < mi ==> base <= ix.multiind[j]
    {
      if base > ix.multiind[mi] {
        base := ix.multiind[mi];
      }
      mi := mi + 1;
    }
  }

  /**
   * After misi_zero, the local slot index `multiind[mi] - mi_base` of every
   * multi token of document d lies in [0, MI_max), so the per-document slot
   * tables of MI_max rows are large enough.
   */
  lemma LocalSlotBound(docs: seq<seq<Word>>, ix: Index, d: nat, base: nat, mi: nat)
    requires IndexOf(docs, ix)
    requires d < |docs|
    requires ix.MI[d] <= mi < ix.MI[d + 1] <= |ix.multiind|
    requires base in ix.multiind[ix.MI[d]..ix.MI[d + 1]]
    requires forall j :: ix.MI[d] <= j < ix.MI[d + 1] ==> base <= ix.multiind[j]
    ensures 0 <= ix.multiind[mi] - base < ix.MIMax
  {
    var sc := DocScan(docs, d);
    var S := SlotsOf(docs[d], sc.wind);
    ScanFacts(docs[d], Base(docs[..d]));
    SlotsRange(docs[d], sc.wind, Base(docs[..d]), sc.next);
    ScanWidth(docs[d], Base(docs[..d]));
    assert ix.multiind[mi] == S[mi - ix.MI[d]];
    var j :| 0 <= j < |S| && S[j] == base;
    WidthsAt(docs, d);
  }
}

=== FILE: misi.dfy ===
/**
 * Per-document burst statistics (util/misi.c, the misi_* routines).
 *
 * For the document being sampled, `Mi[t]` counts its counted tokens of
 * topic t and `Si[t]` those of them that are table events; `Mik[k][t]` and
 * `Sik[k][t]` break the multi tokens down by local slot k.  A non-multi token
 * always counts as a table event; a multi token counts as one when its
 * table-indicator bit `r` is set.  Held-out tokens are not counted.
 */
module Misi {
  import opened BurstIndex
  import opened Grid

  /** A token's packed assignment: its topic (`Z_t`) and its table-indicator bit (`Z_issetr`). */
  datatype Token = Token(topic: nat, r: bool)

  /**
   * One document as the misi_* routines see it through the burst index: the
   * multi bit and held-out flag of each token, the document's slice of
   * `multiind` (read through the multi cursor `mi`, counted from `MI[d]`)
   * and the lowest slot id `mi_base` found by misi_zero.
   */
  datatype DocView = DocView(multi: seq<bool>, hold: seq<bool>, slots: seq<nat>, base: nat)

  /** The live counts of one worker (`D_MiSi_t`). */
  datatype BurstState = BurstState(Mi: seq<int>, Si: seq<int>, Mik: seq<seq<int>>, Sik: seq<seq<int>>)

  /** The view describes `n` tokens and lists one slot id per multi token. */
  predicate Aligned(v: DocView, n: nat)
  {
    |v.multi| == n && |v.hold| == n && |v.slots| == Rank(v.multi, n)
  }

  /** The view and the assignments fit tables of `K` slot rows and `T` topics. */
  predicate Fits(v: DocView, z: seq<Token>, K: nat, T: nat)
  {
    && Aligned(v, |z|)
    && (forall j :: 0 <= j < |v.slots| ==> v.base <= v.slots[j] < v.base + K)
    && (forall l :: 0 <= l < |z| ==> z[l].topic < T)
  }

  /** Every table has `K` slot rows and `T` topic columns. */
  predicate Shape(s: BurstState, K: nat, T: nat)
  {
    && |s.Mi| == T && |s.Si| == T && |s.Mik| == K && |s.Sik| == K
    && (forall k :: 0 <= k < K ==> |s.Mik[k]| == T && |s.Sik[k]| == T)
  }

  predicate Shaped(s: BurstState)
  {
    Shape(s, |s.Mik|, |s.Mi|)
  }

  /** Every slot entry is zero, as after misi_init or a completed misi_unbuild. */
  predicate SlotsZero(s: BurstState, K: nat, T: nat)
    requires Shape(s, K, T)
  {
    forall k, t :: 0 <= k < K && 0 <= t < T ==> s.Mik[k][t] == 0 && s.Sik[k][t] == 0
  }

  /** The burst invariant of one (slot, topic) entry: table events never exceed occurrences, and an occupied entry has one. */
  predicate EntryOk(s: BurstState, k: nat, t: nat)
    requires k < |s.Mik| && k < |s.Sik| && t < |s.Mik[k]| && t < |s.Sik[k]|
  {
    0 <= s.Sik[k][t] <= s.Mik[k][t] && (s.Mik[k][t] == 0 || s.Sik[k][t] > 0)
  }

  predicate EntriesOk(s: BurstState, K: nat, T: nat)
    requires Shape(s, K, T)
  {
    forall k, t :: 0 <= k < K && 0 <= t < T ==> EntryOk(s, k, t)
  }

  /** The local slot index `multiind[mi] - mi_base` the cursor `mi` points at. */
  function Slot(v: DocView, mi: nat): int
    requires mi < |v.slots|
  {
    v.slots[mi] - v.base
  }

  /** The local slot of multi token l, reached with the cursor at its rank. */
  function SlotAt(v: DocView, l: nat): int
    requires Aligned(v, |v.multi|)
    requires l < |v.multi| && v.multi[l]
  {
    RankMono(v.multi, l, |v.multi|);
    Slot(v, Rank(v.multi, l))
  }

  /** Token l is counted in `Mik[k][t]`. */
  predicate Hits(v: DocView, z: seq<Token>, l: nat, k: int, t: nat)
    requires Aligned(v, |z|) && l < |z|
  {
    !v.hold[l] && v.multi[l] && z[l].topic == t && SlotAt(v, l) == k
  }

  /** Counted tokens of topic t among the first n. */
  function CountMi(v: DocView, z: seq<Token>, n: nat, t: nat): nat
    requires Aligned(v, |z|) && n <= |z|
  {
    if n == 0 then 0
    else CountMi(v, z, n - 1, t) + (if !v.hold[n - 1] && z[n - 1].topic == t then 1 else 0)
  }

  /** Counted table events of topic t among the first n: every non-multi token, and multi tokens with `r` set. */
  function CountSi(v: DocView, z: seq<Token>, n: nat, t: nat): nat
    requires Aligned(v, |z|) && n <= |z|
  {
    if n == 0 then 0
    else CountSi(v, z, n - 1, t)
         + (if !v.hold[n - 1] && z[n - 1].topic == t && (!v.multi[n - 1] || z[n - 1].r) then 1 else 0)
  }

  /** Counted multi tokens of slot k and topic t among the first n. */
  function CountMik(v: DocView, z: seq<Token>, n: nat, k: int, t: nat): nat
    requires Aligned(v, |z|) && n <= |z|
  {
    if n == 0 then 0
    else CountMik(v, z, n - 1, k, t) + (if Hits(v, z, n - 1, k, t) then 1 else 0)
  }

  /** Counted multi tokens of slot k and topic t with `r` set among the first n. */
  function CountSik(v: DocView, z: seq<Token>, n: nat, k: int, t: nat): nat
    requires Aligned(v, |z|) && n <= |z|
  {
    if n == 0 then 0
    else CountSik(v, z, n - 1, k, t) + (if Hits(v, z, n - 1, k, t) && z[n - 1].r then 1 else 0)
  }

  /** The assignments keep the burst invariant: every occupied (slot, topic) entry has a token with `r` set. */
  ghost predicate SlotInv(v: DocView, z: seq<Token>, K: nat, T: nat)
    requires Aligned(v, |z|)
  {
    forall k, t :: 0 <= k < K && 0 <= t < T && CountMik(v, z, |z|, k, t) > 0 ==> CountSik(v, z, |z|, k, t) > 0
  }

  /** The state holds exactly the counts of the assignments `z`. */
  ghost predicate Counts(v: DocView, z: seq<Token>, s: BurstState, K: nat, T: nat)
    requires Aligned(v, |z|) && Shape(s, K, T)
  {
    && (forall t :: 0 <= t < T ==> s.Mi[t] == CountMi(v, z, |z|, t) && s.Si[t] == CountSi(v, z, |z|, t))
    && (forall k, t :: 0 <= k < K && 0 <= t < T ==>
          s.Mik[k][t] == CountMik(v, z, |z|, k, t) && s.Sik[k][t] == CountSik(v, z, |z|, k, t))
  }

  /** Table events of an entry never exceed its occurrences. */
  lemma {:induction false} CountSikLeMik(v: DocView, z: seq<Token>, n: nat, k: int, t: nat)
    requires Aligned(v, |z|) && n <= |z|
    ensures CountSik(v, z, n, k, t) <= CountMik(v, z, n, k, t)
    decreases n
  {
    if n > 0 {
      CountSikLeMik(v, z, n - 1, k, t);
    }
  }

  /** A counted multi token without `r` leaves its entry with fewer table events than occurrences. */
  lemma {:induction false} CountGap(v: DocView, z: seq<Token>, n: nat, i: nat, k: int, t: nat)
    requires Aligned(v, |z|) && i < n <= |z|
    requires Hits(v, z, i, k, t) && !z[i].r
    ensures CountSik(v, z, n, k, t) < CountMik(v, z, n, k, t)
    decreases n
  {
    if n - 1 > i {
      CountGap(v, z, n - 1, i, k, t);
    } else {
      CountSikLeMik(v, z, n - 1, k, t);
    }
  }

  /** A token with `r` set gives its entry a table event. */
  lemma {:induction false} CountHit(v: DocView, z: seq<Token>, n: nat, i: nat, k: int, t: nat)
    requires Aligned(v, |z|) && i < n <= |z|
    requires Hits(v, z, i, k, t) && z[i].r
    ensures CountSik(v, z, n, k, t) > 0
    decreases n
  {
    if n - 1 > i {
      CountHit(v, z, n - 1, i, k, t);
    }
  }

  /** An occupied entry has a token that occupies it. */
  lemma {:induction false} CountWitness(v: DocView, z: seq<Token>, n: nat, k: int, t: nat)
    requires Aligned(v, |z|) && n <= |z|
    requires CountMik(v, z, n, k, t) > 0
    ensures exists j :: 0 <= j < n && Hits(v, z, j, k, t)
    decreases n
  {
    if !Hits(v, z, n - 1, k, t) {
      CountWitness(v, z, n - 1, k, t);
    }
  }

  /**
   * misi_build (with misi_zero): `Mi`/`Si` restart from zero and every
   * counted token of the document adds itself to them and, when multi, to its
   * slot entry, walking the multi cursor as it goes.  The slot entries are not
   * cleared: they must already be zero, which the strict build checks, and
   * then they satisfy the burst invariant whenever the assignments do.
   */
  method Build(v: DocView, z: seq<Token>, s0: BurstState, K: nat, T: nat, strict: bool) returns (s: BurstState)
    requires Fits(v, z, K, T) && Shape(s0, K, T)
    requires strict ==> SlotsZero(s0, K, T) && SlotInv(v, z, K, T)
    ensures Shape(s, K, T)
    ensures forall t :: 0 <= t < T ==> s.Mi[t] == CountMi(v, z, |z|, t) && s.Si[t] == CountSi(v, z, |z|, t)
    ensures forall k, t :: 0 <= k < K && 0 <= t < T ==>
              s.Mik[k][t] == s0.Mik[k][t] + CountMik(v, z, |z|, k, t)
              && s.Sik[k][t] == s0.Sik[k][t] + CountSik(v, z, |z|, k, t)
    ensures strict ==> Counts(v, z, s, K, T) && EntriesOk(s, K, T)
  {
    s := BurstState(Zeros(T), Zeros(T), s0.Mik, s0.Sik);
    var mi := 0;
    var l := 0;
    while l < |z|
      invariant 0 <= l <= |z|
      invariant mi == Rank(v.multi, l)
      invariant Shape(s, K, T)
      invariant forall t :: 0 <= t < T ==> s.Mi[t] == CountMi(v, z, l, t) && s.Si[t] == CountSi(v, z, l, t)
      invariant forall k, t :: 0 <= k < K && 0 <= t < T ==>
                  s.Mik[k][t] == s0.Mik[k][t] + CountMik(v, z, l, k, t)
                  && s.Sik[k][t] == s0.Sik[k][t] + CountSik(v, z, l, k, t)
    {
      s := BuildOne(v, z, s0, s, K, T, l, mi);
      if v.multi[l] {
        mi := mi + 1;
      }
      l := l + 1;
    }
    if strict {
      forall k, t | 0 <= k < K && 0 <= t < T
        ensures EntryOk(s, k, t)
      {
        CountSikLeMik(v, z, |z|, k, t);
      }
    }
  }

  /** One token of misi_build's loop, with the multi cursor at the token's rank. */
  method BuildOne(v: DocView, z: seq<Token>, s0: BurstState, s: BurstState, K: nat, T: nat, l: nat, mi: nat)
    returns (s': BurstState)
    requires Fits(v, z, K, T) && Shape(s0, K, T) && Shape(s, K, T)
    requires l < |z| && mi == Rank(v.multi, l)
    requires forall t :: 0 <= t < T ==> s.Mi[t] == CountMi(v, z, l, t) && s.Si[t] == CountSi(v, z, l, t)
    requires forall k, t :: 0 <= k < K && 0 <= t < T ==>
               s.Mik[k][t] == s0.Mik[k][t] + CountMik(v, z, l, k, t)
               && s.Sik[k][t] == s0.Sik[k][t] + CountSik(v, z, l, k, t)
    ensures Shape(s', K, T)
    ensures forall t :: 0 <= t < T ==> s'.Mi[t] == CountMi(v, z, l + 1, t) && s'.Si[t] == CountSi(v, z, l + 1, t)
    ensures forall k, t :: 0 <= k < K && 0 <= t < T ==>
              s'.Mik[k][t] == s0.Mik[k][t] + CountMik(v, z, l + 1, k, t)
              && s'.Sik[k][t] == s0.Sik[k][t] + CountSik(v, z, l + 1, k, t)
  {
    s' := s;
    if !v.hold[l] {
      var t := z[l].topic;
      s' := s'.(Mi := s'.Mi[t := s'.Mi[t] + 1]);
      if v.multi[l] {
        RankMono(v.multi, l, |z|);
        var mii := v.slots[mi] - v.base;
        s' := s'.(Mik := Bump(s'.Mik, mii, t, 1));
        if z[l].r {
          s' := s'.(Sik := Bump(s'.Sik, mii, t, 1), Si := s'.Si[t := s'.Si[t] + 1]);
        }
      } else {
        s' := s'.(Si := s'.Si[t := s'.Si[t] + 1]);
      }
    }
  }

  /**
   * misi_unbuild: every slot entry that a counted multi token of the document
   * occupies is reset to zero; `Mi`/`Si` and all other entries are left alone.
   * The strict form checks that the table is then all zero, which holds when
   * the entries nobody occupies were zero already.
   */
  method Unbuild(v: DocView, z: seq<Token>, s0: BurstState, K: nat, T: nat, strict: bool) returns (s: BurstState)
    requires Fits(v, z, K, T) && Shape(s0, K, T)
    requires strict ==> forall k, t :: 0 <= k < K && 0 <= t < T && CountMik(v, z, |z|, k, t) == 0 ==>
                          s0.Mik[k][t] == 0 && s0.Sik[k][t] == 0
    ensures Shape(s, K, T)
    ensures s.Mi == s0.Mi && s.Si == s0.Si
    ensures forall k, t :: 0 <= k < K && 0 <= t < T ==>
              s.Mik[k][t] == (if CountMik(v, z, |z|, k, t) > 0 then 0 else s0.Mik[k][t])
              && s.Sik[k][t] == (if CountMik(v, z, |z|, k, t) > 0 then 0 else s0.Sik[k][t])
    ensures strict ==> SlotsZero(s, K, T)
  {
    s := s0;
    var mi := 0;
    var l := 0;
    while l < |z|
      invariant 0 <= l <= |z|
      invariant mi == Rank(v.multi, l)
      invariant Shape(s, K, T)
      invariant s.Mi == s0.Mi && s.Si == s0.Si
      invariant forall k, t :: 0 <= k < K && 0 <= t < T ==>
                  s.Mik[k][t] == (if CountMik(v, z, l, k, t) > 0 then 0 else s0.Mik[k][t])
                  && s.Sik[k][t] == (if CountMik(v, z, l, k, t) > 0 then 0 else s0.Sik[k][t])
    {
      if v.multi[l] {
        if !v.hold[l] {
          RankMono(v.multi, l, |z|);
          var mii := v.slots[mi] - v.base;
          var t := z[l].topic;
          s := s.(Mik := Put(s.Mik, mii, t, 0), Sik := Put(s.Sik, mii, t, 0));
        }
        mi := mi + 1;
      }
      l := l + 1;
    }
  }

  /** Unbuilding right after a build from a zero table returns every slot entry to zero. */
  lemma UnbuildAfterBuild(v: DocView, z: seq<Token>, s: BurstState, K: nat, T: nat)
    requires Fits(v, z, K, T) && Shape(s, K, T)
    requires Counts(v, z, s, K, T)
    ensures forall k, t :: 0 <= k < K && 0 <= t < T && CountMik(v, z, |z|, k, t) == 0 ==>
              s.Mik[k][t] == 0 && s.Sik[k][t] == 0
  {
    forall k, t | 0 <= k < K && 0 <= t < T && CountMik(v, z, |z|, k, t) == 0
      ensures s.Mik[k][t] == 0 && s.Sik[k][t] == 0
    {
      CountSikLeMik(v, z, |z|, k, t);
    }
  }

  /** The cursor `mi` of token i addresses the tables: the slot row exists and so does topic t. */
  predicate Addressable(v: DocView, s: BurstState, i: nat, mi: nat, t: nat)
  {
    && Shaped(s)
    && i < |v.multi| && t < |s.Mi|
    && (v.multi[i] ==> mi < |v.slots| && v.base <= v.slots[mi] < v.base + |s.Mik|)
  }

  /** The slot row touched by token i, or -1 for a non-multi token. */
  function RowOf(v: DocView, i: nat, mi: nat): int
    requires i < |v.multi|
    requires v.multi[i] ==> mi < |v.slots|
  {
    if v.multi[i] then Slot(v, mi) else -1
  }

  /**
   * `r` equals `s` except that topic t's `Mi` moved by dM and `Si` by dS, and,
   * when k is a slot row, entry (k, t) of `Mik` by dM and of `Sik` by dS.
   */
  ghost predicate Moved(s: BurstState, r: BurstState, k: int, t: nat, dM: int, dS: int)
  {
    && Shaped(s) && Shaped(r)
    && |r.Mi| == |s.Mi| && |r.Mik| == |s.Mik|
    && (forall u :: 0 <= u < |s.Mi| ==>
          r.Mi[u] == s.Mi[u] + (if u == t then dM else 0)
          && r.Si[u] == s.Si[u] + (if u == t then dS else 0))
    && (forall a, u :: 0 <= a < |s.Mik| && 0 <= u < |s.Mi| ==>
          r.Mik[a][u] == s.Mik[a][u] + (if a == k && u == t then dM else 0)
          && r.Sik[a][u] == s.Sik[a][u] + (if a == k && u == t then dS else 0))
  }

  /**
   * misi_blocked: removing token i (a multi token with `r` set) would take
   * away the only table event of an entry that other tokens still occupy.
   */
  function Blocked(v: DocView, z: seq<Token>, s: BurstState, i: nat, mi: nat, t: nat): bool
    requires Addressable(v, s, i, mi, t) && |z| == |v.multi|
  {
    if v.multi[i] && z[i].r then
      var k := Slot(v, mi);
      s.Mik[k][t] > 1 && s.Sik[k][t] == 1
    else false
  }

  /**
   * misi_decr: take token i of topic t out of the counts; when the word flag
   * `w` is non-negative the token was a table event and leaves `Si`/`Sik`
   * too.  The source asserts that a multi token's entry is occupied.
   */
  function Decr(v: DocView, s: BurstState, i: nat, mi: nat, t: nat, w: int): (r: BurstState)
    requires Addressable(v, s, i, mi, t)
    requires v.multi[i] ==> s.Mik[Slot(v, mi)][t] > 0
    ensures Moved(s, r, RowOf(v, i, mi), t, -1, if w >= 0 then -1 else 0)
  {
    var s1 :=
      if v.multi[i] then
        var k := Slot(v, mi);
        var sik := if w >= 0 then Bump(s.Sik, k, t, -1) else s.Sik;
        s.(Mik := Bump(s.Mik, k, t, -1), Sik := sik)
      else s;
    var s2 := if w >= 0 then s1.(Si := s1.Si[t := s1.Si[t] - 1]) else s1;
    s2.(Mi := s2.Mi[t := s2.Mi[t] - 1])
  }

  /** What misi_incr returns: the new counts, token i's new assignment and the word flag for the caller. */
  datatype Incremented = Incremented(st: BurstState, tok: Token, wid: int)

  /**
   * misi_incr: put token i back with topic t.  A multi token draws whether it
   * is a table event (`draw` is the outcome of `dtip==1 || dtip > u`): on
   * success its `r` bit is set, on failure `r` is cleared and the word flag
   * becomes -1 so the caller skips the word-side counts.
   */
  function Incr(v: DocView, z: seq<Token>, s: BurstState, i: nat, mi: nat, t: nat, w: int, draw: bool): (r: Incremented)
    requires Addressable(v, s, i, mi, t) && |z| == |v.multi|
    ensures r.wid == (if v.multi[i] && !draw then -1 else w)
    ensures r.tok == (if v.multi[i] then Token(z[i].topic, draw) else z[i])
    ensures Moved(s, r.st, RowOf(v, i, mi), t, 1, if r.wid >= 0 then 1 else 0)
  {
    var tok := if v.multi[i] then z[i].(r := draw) else z[i];
    var w' := if v.multi[i] && !draw then -1 else w;
    var s1 :=
      if v.multi[i] then
        var k := Slot(v, mi);
        var sik := if w' >= 0 then Bump(s.Sik, k, t, 1) else s.Sik;
        s.(Mik := Bump(s.Mik, k, t, 1), Sik := sik)
      else s;
    var s2 := if w' >= 0 then s1.(Si := s1.Si[t := s1.Si[t] + 1]) else s1;
    Incremented(s2.(Mi := s2.Mi[t := s2.Mi[t] + 1]), tok, w')
  }

  lemma MovedBack(s: BurstState, m: BurstState, r: BurstState, k: int, t: nat, dM: int, dS: int)
    requires Moved(s, m, k, t, dM, dS) && Moved(m, r, k, t, -dM, -dS)
    ensures r == s
  {
    assert r.Mi == s.Mi;
    assert r.Si == s.Si;
    forall a | 0 <= a < |s.Mik|
      ensures r.Mik[a] == s.Mik[a] && r.Sik[a] == s.Sik[a]
    {
    }
    assert r.Mik == s.Mik;
    assert r.Sik == s.Sik;
  }

  /** misi_decr given the flag misi_incr returned undoes every count change of misi_incr. */
  lemma IncrThenDecr(v: DocView, z: seq<Token>, s: BurstState, i: nat, mi: nat, t: nat, w: int, draw: bool)
    requires Addressable(v, s, i, mi, t) && |z| == |v.multi|
    requires v.multi[i] ==> s.Mik[Slot(v, mi)][t] >= 0
    ensures v.multi[i] ==> Incr(v, z, s, i, mi, t, w, draw).st.Mik[Slot(v, mi)][t] > 0
    ensures Decr(v, Incr(v, z, s, i, mi, t, w, draw).st, i, mi, t, Incr(v, z, s, i, mi, t, w, draw).wid) == s
  {
    var r := Incr(v, z, s, i, mi, t, w, draw);
    MovedBack(s, r.st, Decr(v, r.st, i, mi, t, r.wid), RowOf(v, i, mi), t, 1, if r.wid >= 0 then 1 else 0);
  }

  /**
   * Removing a token that carries its table flag (`w` non-negative exactly
   * when `r` is set, as remove_topic passes it) and putting it back with the
   * same draw as its `r` bit restores the counts and the token.  A non-multi
   * token must have `r` set, as dmi_rand leaves it, since misi_incr always
   * counts it as a table event.
   */
  lemma DecrThenIncr(v: DocView, z: seq<Token>, s: BurstState, i: nat, mi: nat, t: nat, w: nat)
    requires Addressable(v, s, i, mi, t) && |z| == |v.multi|
    requires v.multi[i] ==> s.Mik[Slot(v, mi)][t] > 0
    requires !v.multi[i] ==> z[i].r
    ensures Incr(v, z, Decr(v, s, i, mi, t, if z[i].r then w else -1), i, mi, t, w, z[i].r).st == s
    ensures Incr(v, z, Decr(v, s, i, mi, t, if z[i].r then w else -1), i, mi, t, w, z[i].r).tok == z[i]
    ensures Incr(v, z, Decr(v, s, i, mi, t, if z[i].r then w else -1), i, mi, t, w, z[i].r).wid
            == (if z[i].r then w else -1)
  {
    var d := Decr(v, s, i, mi, t, if z[i].r then w else -1);
    var r := Incr(v, z, d, i, mi, t, w, z[i].r);
    MovedBack(s, d, r.st, RowOf(v, i, mi), t, -1, if z[i].r then -1 else 0);
  }

  /**
   * misi_blocked guards the burst invariant: for a multi token with `r` set
   * whose entry satisfies the invariant, removal is blocked iff the
   * decremented entry would be occupied without a table event.
   */
  lemma BlockedIffUnsafe(v: DocView, z: seq<Token>, s: BurstState, i: nat, mi: nat, t: nat, w: nat)
    requires Addressable(v, s, i, mi, t) && |z| == |v.multi|
    requires v.multi[i] && z[i].r
    requires s.Mik[Slot(v, mi)][t] > 0 && EntryOk(s, Slot(v, mi), t)
    ensures Blocked(v, z, s, i, mi, t) <==> !EntryOk(Decr(v, s, i, mi, t, w), Slot(v, mi), t)
  {
  }

  /**
   * An unblocked misi_decr keeps the burst invariant of the token's entry,
   * given that a token without its table flag (`w` negative) is not one of
   * the entry's table events; in particular `Mik >= Sik` still holds.
   */
  lemma DecrKeepsEntry(v: DocView, z: seq<Token>, s: BurstState, i: nat, mi: nat, t: nat, w: int)
    requires Addressable(v, s, i, mi, t) && |z| == |v.multi|
    requires v.multi[i] && (w >= 0 <==> z[i].r)
    requires s.Mik[Slot(v, mi)][t] > 0 && EntryOk(s, Slot(v, mi), t)
    requires w < 0 ==> s.Sik[Slot(v, mi)][t] < s.Mik[Slot(v, mi)][t]
    requires !Blocked(v, z, s, i, mi, t)
    ensures EntryOk(Decr(v, s, i, mi, t, w), Slot(v, mi), t)
  {
  }

  /**
   * misi_incr keeps the burst invariant of the token's entry provided the
   * table draw succeeds when the entry is empty (the first occurrence of a
   * word in a topic opens a table).
   */
  lemma IncrKeepsEntry(v: DocView, z: seq<Token>, s: BurstState, i: nat, mi: nat, t: nat, w: nat, draw: bool)
    requires Addressable(v, s, i, mi, t) && |z| == |v.multi|
    requires v.multi[i] && EntryOk(s, Slot(v, mi), t)
    requires s.Mik[Slot(v, mi)][t] == 0 ==> draw
    ensures EntryOk(Incr(v, z, s, i, mi, t, w, draw).st, Slot(v, mi), t)
  {
  }

  /** Without the guard the invariant breaks: an entry with two tokens and one table event loses it. */
  lemma UnguardedDecrBreaksEntry()
    ensures var v := DocView([true, true], [false, false], [0, 0], 0);
            var s := BurstState([2], [1], [[2]], [[1]]);
            var z := [Token(0, true), Token(0, false)];
            && Blocked(v, z, s, 0, 0, 0)
            && !Blocked(v, z, s, 1, 1, 0)
            && !EntryOk(Decr(v, s, 0, 0, 0, 0), 0, 0)
            && Decr(v, s, 1, 1, 0, -1) == BurstState([1], [1], [[1]], [[1]])
  {
    var v := DocView([true, true], [false, false], [0, 0], 0);
    var s := BurstState([2], [1], [[2]], [[1]]);
    assert Slot(v, 0) == 0 && Slot(v, 1) == 0;
    var d := Decr(v, s, 0, 0, 0, 0);
    assert d.Mik[0][0] == 1 && d.Sik[0][0] == 0;
    var e := Decr(v, s, 1, 1, 0, -1);
    assert e.Mi == [1] && e.Si == [1];
    assert e.Mik[0] == [1] && e.Sik[0] == [1];
  }

  /** Setting the `r` bit of one token adds one table event to its entry and to its topic when it is multi, and changes nothing else. */
  lemma {:induction false} SetRCounts(v: DocView, z: seq<Token>, i: nat, n: nat, k: int, t: nat)
    requires Aligned(v, |z|) && i < |z| && n <= |z| && !z[i].r
    ensures CountMi(v, z[i := z[i].(r := true)], n, t) == CountMi(v, z, n, t)
    ensures CountMik(v, z[i := z[i].(r := true)], n, k, t) == CountMik(v, z, n, k, t)
    ensures CountSi(v, z[i := z[i].(r := true)], n, t)
            == CountSi(v, z, n, t) + (if i < n && !v.hold[i] && v.multi[i] && z[i].topic == t then 1 else 0)
    ensures CountSik(v, z[i := z[i].(r := true)], n, k, t)
            == CountSik(v, z, n, k, t) + (if i < n && Hits(v, z, i, k, t) then 1 else 0)
    decreases n
  {
    if n > 0 {
      SetRCounts(v, z, i, n - 1, k, t);
    }
  }

  /** Replacing token i moves each count by what the new token contributes minus what the old one did. */
  lemma {:induction false} ReplaceCounts(v: DocView, z: seq<Token>, i: nat, tok: Token, n: nat, k: int, t: nat)
    requires Aligned(v, |z|) && i < |z| && n <= |z|
    ensures CountMi(v, z[i := tok], n, t)
            == CountMi(v, z, n, t) - (if i < n && !v.hold[i] && z[i].topic == t then 1 else 0)
               + (if i < n && !v.hold[i] && tok.topic == t then 1 else 0)
    ensures CountSi(v, z[i := tok], n, t)
            == CountSi(v, z, n, t) - (if i < n && !v.hold[i] && z[i].topic == t && (!v.multi[i] || z[i].r) then 1 else 0)
               + (if i < n && !v.hold[i] && tok.topic == t && (!v.multi[i] || tok.r) then 1 else 0)
    ensures CountMik(v, z[i := tok], n, k, t)
            == CountMik(v, z, n, k, t) - (if i < n && Hits(v, z, i, k, t) then 1 else 0)
               + (if i < n && Hits(v, z[i := tok], i, k, t) then 1 else 0)
    ensures CountSik(v, z[i := tok], n, k, t)
            == CountSik(v, z, n, k, t) - (if i < n && Hits(v, z, i, k, t) && z[i].r then 1 else 0)
               + (if i < n && Hits(v, z[i := tok], i, k, t) && tok.r then 1 else 0)
    decreases n
  {
    if n > 0 {
      ReplaceCounts(v, z, i, tok, n - 1, k, t);
    }
  }

  /**
   * Moving counted token i out of its entry and back in as `tok`, each move
   * touching Si and Sik exactly when the token is a table event, keeps the
   * state equal to the counts of the assignments.
   */
  lemma ReplacedCounts(v: DocView, z: seq<Token>, s: BurstState, m: BurstState, s': BurstState, K: nat, T: nat,
                       i: nat, mi: nat, tok: Token)
    requires Fits(v, z, K, T) && Shape(s, K, T) && Counts(v, z, s, K, T)
    requires i < |z| && mi == Rank(v.multi, i) && !v.hold[i] && tok.topic < T
    requires v.multi[i] ==> mi < |v.slots|
    requires Moved(s, m, RowOf(v, i, mi), z[i].topic, -1, if !v.multi[i] || z[i].r then -1 else 0)
    requires Moved(m, s', RowOf(v, i, mi), tok.topic, 1, if !v.multi[i] || tok.r then 1 else 0)
    ensures Shape(s', K, T) && Counts(v, z[i := tok], s', K, T)
  {
    var z2 := z[i := tok];
    forall k, a | 0 <= k < K && 0 <= a < T
      ensures s'.Mik[k][a] == CountMik(v, z2, |z2|, k, a) && s'.Sik[k][a] == CountSik(v, z2, |z2|, k, a)
    {
      ReplaceCounts(v, z, i, tok, |z|, k, a);
    }
    forall a | 0 <= a < T
      ensures s'.Mi[a] == CountMi(v, z2, |z2|, a) && s'.Si[a] == CountSi(v, z2, |z2|, a)
    {
      ReplaceCounts(v, z, i, tok, |z|, 0, a);
    }
  }

  /**
   * Resampling a counted token keeps the counts: misi_decr with the word flag
   * the token loop passes (-1 exactly when `r` is clear), followed by
   * misi_incr under the new topic, leaves a state that is exactly the counts
   * of the re-topicked assignments.  A counted non-multi token must carry `r`,
   * as dmi_rand leaves it and misi_incr keeps it.
   */
  lemma ResampleKeepsCounts(v: DocView, z: seq<Token>, s: BurstState, K: nat, T: nat, i: nat, mi: nat,
                            t': nat, w: nat, draw: bool)
    requires Fits(v, z, K, T) && Shape(s, K, T) && Counts(v, z, s, K, T)
    requires i < |z| && mi == Rank(v.multi, i) && !v.hold[i] && (!v.multi[i] ==> z[i].r) && t' < T
    ensures Addressable(v, s, i, mi, z[i].topic) && (v.multi[i] ==> s.Mik[Slot(v, mi)][z[i].topic] > 0)
    ensures var m := Decr(v, s, i, mi, z[i].topic, if z[i].r then w else -1);
            var u := Incr(v, z[i := z[i].(topic := t')], m, i, mi, t', w, draw);
            && Addressable(v, m, i, mi, t')
            && Shape(u.st, K, T) && Counts(v, z[i := u.tok], u.st, K, T)
            && u.tok.topic == t' && (!v.multi[i] ==> u.tok.r)
  {
    var t := z[i].topic;
    if v.multi[i] {
      SlotInRange(v, z, K, T, i);
      var k := Slot(v, mi);
      assert Hits(v, z, i, k, t);
      if z[i].r {
        CountHit(v, z, |z|, i, k, t);
        CountSikLeMik(v, z, |z|, k, t);
      } else {
        CountGap(v, z, |z|, i, k, t);
      }
    }
    var m := Decr(v, s, i, mi, t, if z[i].r then w else -1);
    var u := Incr(v, z[i := z[i].(topic := t')], m, i, mi, t', w, draw);
    ReplacedCounts(v, z, s, m, u.st, K, T, i, mi, u.tok);
  }

  /** Every counted multi token occupies an entry of a table that `Fits` sizes. */
  lemma SlotInRange(v: DocView, z: seq<Token>, K: nat, T: nat, l: nat)
    requires Fits(v, z, K, T) && l < |z| && v.multi[l]
    ensures Rank(v.multi, l) < |v.slots|
    ensures 0 <= SlotAt(v, l) < K
  {
    RankMono(v.multi, l, |z|);
  }

  /**
   * The view of document d built from dmi_init's index (its multi bits and
   * its slice of `multiind`) and a base with misi_zero's guarantees (an
   * entry of the slice, when there is one, and no entry below it) fits
   * burst tables of `MI_max` slot rows, whatever the hold-out flags and
   * whatever topics below T the tokens carry.
   */
  lemma ViewFits(docs: seq<seq<Word>>, ix: Index, d: nat, hold: seq<bool>, base: nat, z: seq<Token>, T: nat)
    requires IndexOf(docs, ix) && d < |docs|
    requires |hold| == |docs[d]| && |z| == |docs[d]|
    requires forall l :: 0 <= l < |z| ==> z[l].topic < T
    requires ix.MI[d] <= ix.MI[d + 1] <= |ix.multiind|
    requires ix.MI[d] < ix.MI[d + 1] ==> base in ix.multiind[ix.MI[d]..ix.MI[d + 1]]
    requires forall mi :: ix.MI[d] <= mi < ix.MI[d + 1] ==> base <= ix.multiind[mi]
    ensures Fits(DocView(ix.multi[d], hold, ix.multiind[ix.MI[d]..ix.MI[d + 1]], base), z, ix.MIMax, T)
  {
    IndexedDoc(docs, ix, d);
    var doc := docs[d];
    var S := ix.multiind[ix.MI[d]..ix.MI[d + 1]];
    RankOfMulti(doc, ix.multi[d], |doc|);
    assert doc[..|doc|] == doc;
    ScanFacts(doc, Base(docs[..d]));
    SlotsLength(doc, doc, DocScan(docs, d).wind);
    forall j | 0 <= j < |S|
      ensures base <= S[j] < base + ix.MIMax
    {
      LocalSlotBound(docs, ix, d, base, ix.MI[d] + j);
    }
  }

  /** Setting the `r` bit of a counted token keeps the counts exact once a multi token's entry and topic gain a table event. */
  lemma SetRKeepsCounts(v: DocView, z: seq<Token>, s: BurstState, s': BurstState, K: nat, T: nat, i: nat)
    requires Fits(v, z, K, T) && Shape(s, K, T) && Counts(v, z, s, K, T)
    requires i < |z| && !z[i].r && !v.hold[i]
    requires !v.multi[i] ==> s' == s
    requires v.multi[i] ==> 0 <= SlotAt(v, i) < K
    requires v.multi[i] ==> s' == s.(Sik := Bump(s.Sik, SlotAt(v, i), z[i].topic, 1),
                                     Si := s.Si[z[i].topic := s.Si[z[i].topic] + 1])
    ensures Fits(v, z[i := z[i].(r := true)], K, T) && Shape(s', K, T)
    ensures Counts(v, z[i := z[i].(r := true)], s', K, T)
  {
    var z' := z[i := z[i].(r := true)];
    forall k, u | 0 <= k < K && 0 <= u < T
      ensures s'.Mik[k][u] == CountMik(v, z', |z'|, k, u) && s'.Sik[k][u] == CountSik(v, z', |z'|, k, u)
    {
      SetRCounts(v, z, i, |z|, k, u);
    }
    forall u | 0 <= u < T
      ensures s'.Mi[u] == CountMi(v, z', |z'|, u) && s'.Si[u] == CountSi(v, z', |z'|, u)
    {
      SetRCounts(v, z, i, |z|, 0, u);
    }
  }

  /** One token of dmi_rand's marking loop, with the multi cursor `mi` at the token's rank. */
  method MarkOne(v: DocView, z: seq<Token>, s0: BurstState, K: nat, T: nat, i: nat, mi: nat)
    returns (z2: seq<Token>, s: BurstState)
    requires Fits(v, z, K, T) && Shape(s0, K, T) && Counts(v, z, s0, K, T)
    requires i < |z| && mi == Rank(v.multi, i)
    ensures |z2| == |z| && Fits(v, z2, K, T) && Shape(s, K, T) && Counts(v, z2, s, K, T)
    ensures forall l :: 0 <= l < |z| && l != i ==> z2[l] == z[l]
    ensures z2[i].topic == z[i].topic && (z[i].r ==> z2[i].r)
    ensures v.hold[i] ==> z2[i] == z[i]
    ensures !v.hold[i] && !v.multi[i] ==> z2[i].r
    ensures !v.hold[i] && v.multi[i] ==> 0 <= SlotAt(v, i) < K && s.Sik[SlotAt(v, i)][z[i].topic] > 0
    ensures !v.hold[i] && v.multi[i] ==> (z2[i].r <==> z[i].r || s0.Sik[SlotAt(v, i)][z[i].topic] == 0)
    ensures forall k, t :: 0 <= k < K && 0 <= t < T ==>
              s.Sik[k][t] == s0.Sik[k][t] + (if Hits(v, z, i, k, t) && !z[i].r && z2[i].r then 1 else 0)
  {
    z2 := z;
    s := s0;
    if !v.hold[i] {
      if v.multi[i] {
        SlotInRange(v, z2, K, T, i);
        var mii := v.slots[mi] - v.base;
        var t := z2[i].topic;
        if z2[i].r {
          CountHit(v, z2, |z|, i, mii, t);
        }
        if s.Sik[mii][t] == 0 && !z2[i].r {
          var s' := s.(Sik := Bump(s.Sik, mii, t, 1), Si := s.Si[t := s.Si[t] + 1]);
          SetRKeepsCounts(v, z2, s, s', K, T, i);
          z2 := z2[i := z2[i].(r := true)];
          s := s';
        }
      } else {
        if !z2[i].r {
          SetRKeepsCounts(v, z2, s, s, K, T, i);
        } else {
          assert z2[i := z2[i].(r := true)] == z2;
        }
        z2 := z2[i := z2[i].(r := true)];
      }
    }
  }

  /**
   * dmi_rand for one document: build the counts, then give every counted
   * non-multi token its `r` bit and give a multi token the `r` bit when its
   * entry has no table event yet, then unbuild with the strict check.  Topics
   * and held-out tokens are untouched, `r` bits are only ever set, and the
   * result satisfies the burst invariant, leaving the worker's slot table at
   * zero again.
   */
  method DmiRand(v: DocView, z: seq<Token>, s0: BurstState, K: nat, T: nat) returns (z2: seq<Token>, s: BurstState)
    requires Fits(v, z, K, T) && Shape(s0, K, T) && SlotsZero(s0, K, T)
    ensures |z2| == |z|
    ensures forall l :: 0 <= l < |z| ==> z2[l].topic == z[l].topic && (z[l].r ==> z2[l].r)
    ensures forall l :: 0 <= l < |z| && v.hold[l] ==> z2[l] == z[l]
    ensures forall l :: 0 <= l < |z| && !v.hold[l] && !v.multi[l] ==> z2[l].r
    ensures forall l :: 0 <= l < |z| && !v.hold[l] && v.multi[l] ==>
              (z2[l].r <==> z[l].r || (CountSik(v, z, |z|, SlotAt(v, l), z[l].topic) == 0
                                       && CountMik(v, z, l, SlotAt(v, l), z[l].topic) == 0))
    ensures SlotInv(v, z2, K, T)
    ensures forall k, t :: 0 <= k < K && 0 <= t < T ==>
              CountSik(v, z2, |z|, k, t)
              == (if CountMik(v, z, |z|, k, t) > 0 && CountSik(v, z, |z|, k, t) == 0 then 1 else CountSik(v, z, |z|, k, t))
    ensures Shape(s, K, T) && SlotsZero(s, K, T)
  {
    s := Build(v, z, s0, K, T, false);
    z2, s := MarkAll(v, z, s, K, T);
    EventsInv(v, z2, s, K, T);
    UnbuildAfterBuild(v, z2, s, K, T);
    s := Unbuild(v, z2, s, K, T, true);
  }

  /**
   * The table events of entry (k, t) once dmi_rand has marked the first n
   * tokens, starting from the counts `s0` of `z`: an entry without one gets
   * exactly one as soon as a counted token occupies it; any other keeps its own.
   */
  function MarkedSik(v: DocView, z: seq<Token>, s0: BurstState, n: nat, k: nat, t: nat): int
    requires Aligned(v, |z|) && n <= |z| && k < |s0.Sik| && t < |s0.Sik[k]|
  {
    if s0.Sik[k][t] == 0 && CountMik(v, z, n, k, t) > 0 then 1 else s0.Sik[k][t]
  }

  /** Marking token i, which gains `r` exactly when its entry has no table event yet, moves the marked entries on by one token. */
  lemma MarkedNext(v: DocView, z: seq<Token>, s0: BurstState, sa: BurstState, sb: BurstState, K: nat, T: nat,
                   i: nat, r: bool)
    requires Fits(v, z, K, T) && Shape(s0, K, T) && Counts(v, z, s0, K, T) && i < |z|
    requires Shape(sa, K, T) && Shape(sb, K, T)
    requires forall k, t :: 0 <= k < K && 0 <= t < T ==> sa.Sik[k][t] == MarkedSik(v, z, s0, i, k, t)
    requires !v.hold[i] && v.multi[i] ==> 0 <= SlotAt(v, i) < K && (r <==> z[i].r || sa.Sik[SlotAt(v, i)][z[i].topic] == 0)
    requires forall k, t :: 0 <= k < K && 0 <= t < T ==>
               sb.Sik[k][t] == sa.Sik[k][t] + (if Hits(v, z, i, k, t) && !z[i].r && r then 1 else 0)
    ensures forall k, t :: 0 <= k < K && 0 <= t < T ==> sb.Sik[k][t] == MarkedSik(v, z, s0, i + 1, k, t)
  {
    forall k, t | 0 <= k < K && 0 <= t < T
      ensures sb.Sik[k][t] == MarkedSik(v, z, s0, i + 1, k, t)
    {
      if Hits(v, z, i, k, t) && z[i].r {
        CountHit(v, z, |z|, i, k, t);
      }
    }
  }

  /** What holds once dmi_rand's loop has marked the first i tokens of `z`, reaching `z2` and `s`. */
  ghost predicate Marked(v: DocView, z: seq<Token>, s0: BurstState, K: nat, T: nat, i: nat, z2: seq<Token>, s: BurstState)
    requires Fits(v, z, K, T) && Shape(s0, K, T)
  {
    && i <= |z| && |z2| == |z| && Fits(v, z2, K, T)
    && (forall l :: 0 <= l < |z| ==> z2[l].topic == z[l].topic && (z[l].r ==> z2[l].r))
    && (forall l :: i <= l < |z| ==> z2[l] == z[l])
    && (forall l :: 0 <= l < |z| && v.hold[l] ==> z2[l] == z[l])
    && (forall l :: 0 <= l < i && !v.hold[l] && !v.multi[l] ==> z2[l].r)
    && Shape(s, K, T) && Counts(v, z2, s, K, T)
    && (forall l :: 0 <= l < i && !v.hold[l] && v.multi[l] ==>
          0 <= SlotAt(v, l) < K && s.Sik[SlotAt(v, l)][z[l].topic] > 0)
    && (forall l :: 0 <= l < i && !v.hold[l] && v.multi[l] ==>
          (z2[l].r <==> z[l].r || (CountSik(v, z, |z|, SlotAt(v, l), z[l].topic) == 0
                                   && CountMik(v, z, l, SlotAt(v, l), z[l].topic) == 0)))
    && (forall k, t :: 0 <= k < K && 0 <= t < T ==> s.Sik[k][t] == MarkedSik(v, z, s0, i, k, t))
  }

  /** One turn of dmi_rand's loop: MarkOne on token i carries Marked from i to i + 1. */
  method MarkStep(v: DocView, z: seq<Token>, s0: BurstState, K: nat, T: nat, i: nat, mi: nat,
                  z1: seq<Token>, s1: BurstState)
    returns (z2: seq<Token>, s: BurstState)
    requires Fits(v, z, K, T) && Shape(s0, K, T) && Counts(v, z, s0, K, T)
    requires Marked(v, z, s0, K, T, i, z1, s1) && i < |z| && mi == Rank(v.multi, i)
    ensures Marked(v, z, s0, K, T, i + 1, z2, s)
  {
    z2, s := MarkOne(v, z1, s1, K, T, i, mi);
    MarkedNext(v, z, s0, s1, s, K, T, i, z2[i].r);
    if !v.hold[i] && v.multi[i] {
      var k, t := SlotAt(v, i), z[i].topic;
      assert s1.Sik[k][t] == MarkedSik(v, z, s0, i, k, t);
      assert s0.Sik[k][t] == CountSik(v, z, |z|, k, t);
    }
  }

  /** dmi_rand's loop over the tokens of one document, MarkOne at a time. */
  method MarkAll(v: DocView, z: seq<Token>, s0: BurstState, K: nat, T: nat) returns (z2: seq<Token>, s: BurstState)
    requires Fits(v, z, K, T) && Shape(s0, K, T) && Counts(v, z, s0, K, T)
    ensures |z2| == |z| && Fits(v, z2, K, T) && Shape(s, K, T) && Counts(v, z2, s, K, T)
    ensures forall l :: 0 <= l < |z| ==> z2[l].topic == z[l].topic && (z[l].r ==> z2[l].r)
    ensures forall l :: 0 <= l < |z| && v.hold[l] ==> z2[l] == z[l]
    ensures forall l :: 0 <= l < |z| && !v.hold[l] && !v.multi[l] ==> z2[l].r
    ensures forall l :: 0 <= l < |z| && !v.hold[l] && v.multi[l] ==>
              0 <= SlotAt(v, l) < K && s.Sik[SlotAt(v, l)][z[l].topic] > 0
    ensures forall l :: 0 <= l < |z| && !v.hold[l] && v.multi[l] ==>
              (z2[l].r <==> z[l].r || (CountSik(v, z, |z|, SlotAt(v, l), z[l].topic) == 0
                                       && CountMik(v, z, l, SlotAt(v, l), z[l].topic) == 0))
    ensures forall k, t :: 0 <= k < K && 0 <= t < T ==> s.Sik[k][t] == MarkedSik(v, z, s0, |z|, k, t)
  {
    s := s0;
    z2 := z;
    var mi := 0;
    var i := 0;
    while i < |z|
      invariant i <= |z| && mi == Rank(v.multi, i)
      invariant Marked(v, z, s0, K, T, i, z2, s)
    {
      z2, s := MarkStep(v, z, s0, K, T, i, mi, z2, s);
      if v.multi[i] {
        mi := mi + 1;
      }
      i := i + 1;
    }
  }

  /** When every counted multi token's entry has a table event, the assignments keep the burst invariant. */
  lemma EventsInv(v: DocView, z: seq<Token>, s: BurstState, K: nat, T: nat)
    requires Fits(v, z, K, T) && Shape(s, K, T) && Counts(v, z, s, K, T)
    requires forall l :: 0 <= l < |z| && !v.hold[l] && v.multi[l] ==>
               0 <= SlotAt(v, l) < K && s.Sik[SlotAt(v, l)][z[l].topic] > 0
    ensures SlotInv(v, z, K, T)
  {
    forall k, t | 0 <= k < K && 0 <= t < T && CountMik(v, z, |z|, k, t) > 0
      ensures CountSik(v, z, |z|, k, t) > 0
    {
      CountWitness(v, z, |z|, k, t);
    }
  }

  /**
   * dmi_check for one document: build the counts from a zero slot table,
   * check the burst invariant of every entry, and unbuild.  The check passes
   * iff the assignments keep the burst invariant, and the slot table is zero
   * again afterwards.
   */
  method DmiCheck(v: DocView, z: seq<Token>, s0: BurstState, K: nat, T: nat) returns (ok: bool, s: BurstState)
    requires Fits(v, z, K, T) && Shape(s0, K, T) && SlotsZero(s0, K, T)
    ensures ok <==> SlotInv(v, z, K, T)
    ensures Shape(s, K, T) && SlotsZero(s, K, T)
  {
    s := Build(v, z, s0, K, T, false);
    ok := true;
    var k := 0;
    while k < K
      invariant 0 <= k <= K
      invariant ok <==> forall a, t :: 0 <= a < k && 0 <= t < T ==> EntryOk(s, a, t)
    {
      var t := 0;
      while t < T
        invariant 0 <= t <= T
        invariant ok <==> (forall a, u :: 0 <= a < k && 0 <= u < T ==> EntryOk(s, a, u))
                          && (forall u :: 0 <= u < t ==> EntryOk(s, k, u))
      {
        if !EntryOk(s, k, t) {
          ok := false;
        }
        t := t + 1;
      }
      k := k + 1;
    }
    forall a, t | 0 <= a < K && 0 <= t < T
      ensures EntryOk(s, a, t) <==> (CountMik(v, z, |z|, a, t) > 0 ==> CountSik(v, z, |z|, a, t) > 0)
    {
      CountSikLeMik(v, z, |z|, a, t);
    }
    UnbuildAfterBuild(v, z, s, K, T);
    s := Unbuild(v, z, s, K, T, true);
  }
}

=== FILE: sweep.dfy ===
/**
 * The per-token control flow of gibbs_lda (hca/gibbs.c): for each token of
 * one document, remove its topic (unless it is held out or the pass only
 * adds), skip the token when the removal is rejected, stop after the
 * removal on a subtracting pass, otherwise install the sampled topic; and
 * in bursty mode advance the multi cursor `mi` past every repeated token on
 * every path.  The topic probabilities and the sampling itself are
 * collaborators: their outcomes arrive as `Draws`.
 */
module Sweep {
  import opened BurstIndex
  import opened Misi
  import opened Gibbs

  /** `GibbsNone` samples every token; `GibbsHold` leaves held-out tokens alone. */
  datatype GibbsType = GibbsNone | GibbsHold

  /** The state one call of gibbs_lda works on: statistics, the table total `Td_`, the document's burst state and its assignments. */
  datatype Sampler = Sampler(st: Stats, td: int, bs: BurstState, z: seq<Token>)

  /** The random outcomes of one token: the removal draws, the sampled topic, and the table and burst draws of the update. */
  datatype Draws = Draws(uDoc: real, uWord: real, topic: nat, openDoc: bool, openWord: bool, burst: bool)

  /** The outcome of one token: the new state and whether the token was skipped, or a stop on a failed apply-phase assertion. */
  datatype Stepped = Stepped(s: Sampler, skipped: bool) | Halted

  /** The state fits its own dimensions: topics are in range and, in bursty mode, the burst state covers the document's slots. */
  predicate Ready(cfg: Config, v: DocView, s: Sampler)
  {
    && Sized(s.st)
    && (forall l :: 0 <= l < |s.z| ==> s.z[l].topic < |s.st.NWt|)
    && (cfg.bursty ==> Fits(v, s.z, |s.bs.Mik|, |s.st.NWt|) && Shape(s.bs, |s.bs.Mik|, |s.st.NWt|))
  }

  /** Token i of document `did`, with word `w`, can be visited with the cursor `mi`, which in bursty mode counts the multi tokens before i. */
  predicate StepReady(cfg: Config, v: DocView, w: nat, did: nat, i: nat, mi: nat, s: Sampler)
  {
    && Ready(cfg, v, s)
    && did < |s.st.Ndt| && w < |s.st.Nwt| && i < |s.z|
    && (cfg.bursty ==> mi == Rank(v.multi, i))
  }

  /** The cursor reaches the token's slot. */
  lemma Reach(cfg: Config, v: DocView, w: nat, did: nat, i: nat, mi: nat, s: Sampler, t: nat)
    requires StepReady(cfg, v, w, did, i, mi, s) && t < |s.st.NWt|
    ensures BurstReady(cfg, v, s.z, s.bs, i, mi, t)
    ensures DocCell(s.st, did, t) && WordCell(s.st, w, t) && WordCell(s.st, -1, t)
  {
    if cfg.bursty && v.multi[i] {
      SlotInRange(v, s.z, |s.bs.Mik|, |s.st.NWt|, i);
    }
  }

  /** Z_sett followed by update_topic: token i takes the sampled topic and its counts are installed. */
  function Install(cfg: Config, v: DocView, w: nat, did: nat, i: nat, mi: nat, s: Sampler, d: Draws): (r: Sampler)
    requires StepReady(cfg, v, w, did, i, mi, s) && d.topic < |s.st.NWt|
    ensures Ready(cfg, v, r) && SameShape(s.st, r.st) && |r.bs.Mik| == |s.bs.Mik|
    ensures |r.z| == |s.z| && r.z[i].topic == d.topic
    ensures forall l :: 0 <= l < |s.z| && l != i ==> r.z[l] == s.z[l]
    ensures BurstReady(cfg, v, s.z[i := s.z[i].(topic := d.topic)], s.bs, i, mi, d.topic)
    ensures var u := Update(cfg, s.st, s.td, v, s.z[i := s.z[i].(topic := d.topic)], s.bs, i, mi, did, w, d.topic,
                            d.openDoc, d.openWord, d.burst);
            r == Sampler(u.st, u.td, u.bs, s.z[i := u.tok])
  {
    var z1 := s.z[i := s.z[i].(topic := d.topic)];
    var s1 := s.(z := z1);
    Reach(cfg, v, w, did, i, mi, s1, d.topic);
    var u := Update(cfg, s.st, s.td, v, z1, s.bs, i, mi, did, w, d.topic, d.openDoc, d.openWord, d.burst);
    var r := Sampler(u.st, u.td, u.bs, z1[i := u.tok]);
    StillReady(cfg, v, s, r);
    r
  }

  /** A state whose tables keep their shape and whose topics stay in range is still ready. */
  lemma StillReady(cfg: Config, v: DocView, s: Sampler, r: Sampler)
    requires Ready(cfg, v, s)
    requires SameShape(s.st, r.st) && |r.bs.Mik| == |s.bs.Mik| && |r.z| == |s.z|
    requires forall l :: 0 <= l < |r.z| ==> r.z[l].topic < |r.st.NWt|
    requires cfg.bursty ==> Shape(r.bs, |r.bs.Mik|, |r.st.NWt|)
    ensures Ready(cfg, v, r)
  {
  }

  /** The removal step of token i, reading the word side from the r bit in bursty mode. */
  function Take(cfg: Config, v: DocView, w: nat, did: nat, i: nat, mi: nat, s: Sampler, d: Draws, incremental: int): (r: Removal)
    requires StepReady(cfg, v, w, did, i, mi, s)
    requires BurstReady(cfg, v, s.z, s.bs, i, mi, s.z[i].topic)
    requires Decide(cfg, s.st, v, s.z, s.bs, i, mi, did, RemoveWid(cfg, s.z[i], w), s.z[i].topic,
                    d.uDoc, d.uWord, incremental).Go? ==>
               ApplyOk(cfg, s.st, v, s.bs, i, mi, did, RemoveWid(cfg, s.z[i], w), s.z[i].topic)
    ensures r == Remove(cfg, s.st, s.td, v, s.z, s.bs, i, mi, did, RemoveWid(cfg, s.z[i], w), s.z[i].topic,
                        d.uDoc, d.uWord, incremental)
    ensures incremental < 0 ==> r.Removed?
    ensures r.Removed? ==> Ready(cfg, v, Sampler(r.st, r.td, r.bs, s.z)) && SameShape(s.st, r.st) && |r.bs.Mik| == |s.bs.Mik|
  {
    Reach(cfg, v, w, did, i, mi, s, s.z[i].topic);
    Remove(cfg, s.st, s.td, v, s.z, s.bs, i, mi, did, RemoveWid(cfg, s.z[i], w), s.z[i].topic,
           d.uDoc, d.uWord, incremental)
  }

  /** The apply phase of remove_topic would fail an assertion on token i: the decision accepts, but the cell or the burst entry does not hold the token, or the entry would be left with Mik < Sik. */
  predicate ApplyFails(cfg: Config, v: DocView, w: nat, did: nat, i: nat, mi: nat, s: Sampler, d: Draws, incremental: int)
    requires StepReady(cfg, v, w, did, i, mi, s) && BurstReady(cfg, v, s.z, s.bs, i, mi, s.z[i].topic)
  {
    && Decide(cfg, s.st, v, s.z, s.bs, i, mi, did, RemoveWid(cfg, s.z[i], w), s.z[i].topic, d.uDoc, d.uWord, incremental).Go?
    && !ApplyOk(cfg, s.st, v, s.bs, i, mi, did, RemoveWid(cfg, s.z[i], w), s.z[i].topic)
  }

  /** remove_topic refuses token i: an unforced removal meets a sole-table-head conflict or the burst guard. */
  predicate Refused(cfg: Config, v: DocView, w: nat, did: nat, i: nat, mi: nat, s: Sampler, d: Draws, incremental: int)
    requires StepReady(cfg, v, w, did, i, mi, s) && BurstReady(cfg, v, s.z, s.bs, i, mi, s.z[i].topic)
  {
    var t := s.z[i].topic;
    && incremental >= 0
    && (|| DocConflict(cfg, s.st, did, t, d.uDoc)
        || WordConflict(cfg, s.st, RemoveWid(cfg, s.z[i], w), t, d.uWord)
        || (cfg.bursty && Blocked(v, s.z, s.bs, i, mi, t)))
  }

  /** A token that is not held out and not only added: remove its topic, then skip, stop or install the sampled topic. */
  function Visit(cfg: Config, incremental: int, v: DocView, w: nat, did: nat,
                 i: nat, mi: nat, s: Sampler, d: Draws): (r: Stepped)
    requires StepReady(cfg, v, w, did, i, mi, s) && d.topic < |s.st.NWt| && incremental <= 0
    requires BurstReady(cfg, v, s.z, s.bs, i, mi, s.z[i].topic)
    ensures r.Halted? <==> ApplyFails(cfg, v, w, did, i, mi, s, d, incremental)
    ensures r.Stepped? ==> (r.skipped <==> Refused(cfg, v, w, did, i, mi, s, d, incremental))
    ensures r.Stepped? && !r.skipped ==>
              var rm := Take(cfg, v, w, did, i, mi, s, d, incremental);
              && rm.Removed?
              && r.s == (if incremental < 0 then Sampler(rm.st, rm.td, rm.bs, s.z)
                         else Install(cfg, v, w, did, i, mi, Sampler(rm.st, rm.td, rm.bs, s.z), d))
    ensures r.Stepped? ==> Ready(cfg, v, r.s) && SameShape(s.st, r.s.st) && |r.s.bs.Mik| == |s.bs.Mik|
    ensures r.Stepped? ==> |r.s.z| == |s.z| && forall l :: 0 <= l < |s.z| && l != i ==> r.s.z[l] == s.z[l]
    ensures r.Stepped? && r.skipped ==> r.s == s
    ensures r.Stepped? && incremental < 0 ==> r.s.z == s.z
    ensures r.Stepped? && !r.skipped && incremental == 0 ==> r.s.z[i].topic == d.topic
  {
    var t := s.z[i].topic;
    var wr := RemoveWid(cfg, s.z[i], w);
    if Decide(cfg, s.st, v, s.z, s.bs, i, mi, did, wr, t, d.uDoc, d.uWord, incremental).Go?
       && !ApplyOk(cfg, s.st, v, s.bs, i, mi, did, wr, t) then
      Halted
    else
      match Take(cfg, v, w, did, i, mi, s, d, incremental)
      case Rejected => Stepped(s, true)
      case Removed(st1, td1, bs1, _, _) =>
        var s1 := Sampler(st1, td1, bs1, s.z);
        if incremental < 0 then Stepped(s1, false)
        else Stepped(Install(cfg, v, w, did, i, mi, s1, d), false)
  }

  /**
   * One iteration of gibbs_lda's token loop.  `hold` is `pctl_hold(i)`;
   * the token is held out when `fix` is GibbsHold and `hold` is set.
   */
  function Step(cfg: Config, fix: GibbsType, hold: bool, incremental: int, v: DocView, w: nat, did: nat,
                i: nat, mi: nat, s: Sampler, d: Draws): (r: Stepped)
    requires StepReady(cfg, v, w, did, i, mi, s) && d.topic < |s.st.NWt|
    ensures r.Stepped? ==> Ready(cfg, v, r.s) && SameShape(s.st, r.s.st) && |r.s.bs.Mik| == |s.bs.Mik|
    ensures r.Stepped? ==> |r.s.z| == |s.z| && forall l :: 0 <= l < |s.z| && l != i ==> r.s.z[l] == s.z[l]
    ensures r.Stepped? && r.skipped ==> r.s == s && incremental >= 0
    ensures r.Halted? ==> incremental <= 0 && !(fix == GibbsHold && hold)
    ensures fix == GibbsHold && hold ==> r == Stepped(s, false)
    ensures r.Stepped? && incremental < 0 ==> r.s.z == s.z
    ensures r.Stepped? && !r.skipped && incremental >= 0 && !(fix == GibbsHold && hold) ==> r.s.z[i].topic == d.topic
    ensures BurstReady(cfg, v, s.z, s.bs, i, mi, s.z[i].topic)
    ensures r.Halted? <==> incremental <= 0 && !(fix == GibbsHold && hold) && ApplyFails(cfg, v, w, did, i, mi, s, d, incremental)
    ensures r.Stepped? ==>
              (r.skipped <==> incremental <= 0 && !(fix == GibbsHold && hold) && Refused(cfg, v, w, did, i, mi, s, d, incremental))
    ensures incremental <= 0 && !(fix == GibbsHold && hold) ==> r == Visit(cfg, incremental, v, w, did, i, mi, s, d)
    ensures incremental > 0 && !(fix == GibbsHold && hold) ==> r == Stepped(Install(cfg, v, w, did, i, mi, s, d), false)
  {
    var fixDoc := fix == GibbsHold && hold;
    var t := s.z[i].topic;
    Reach(cfg, v, w, did, i, mi, s, t);
    if incremental <= 0 && !fixDoc then
      Visit(cfg, incremental, v, w, did, i, mi, s, d)
    else if incremental < 0 || fixDoc then Stepped(s, false)
    else Stepped(Install(cfg, v, w, did, i, mi, s, d), false)
  }

  /**
   * A token whose document cell holds it, in a state whose burst tables are
   * exactly the counts of the assignments, never stops the pass: every
   * assertion of the apply phase holds, whatever the draws.
   */
  lemma CountedNeverHalts(cfg: Config, fix: GibbsType, hold: bool, incremental: int, v: DocView, w: nat, did: nat,
                          i: nat, mi: nat, s: Sampler, d: Draws)
    requires StepReady(cfg, v, w, did, i, mi, s) && d.topic < |s.st.NWt|
    requires BurstReady(cfg, v, s.z, s.bs, i, mi, s.z[i].topic)
    requires s.st.Ndt[did][s.z[i].topic] > 0
    requires cfg.bursty ==> !v.hold[i] && Counts(v, s.z, s.bs, |s.bs.Mik|, |s.st.NWt|)
    ensures !ApplyFails(cfg, v, w, did, i, mi, s, d, incremental)
    ensures Step(cfg, fix, hold, incremental, v, w, did, i, mi, s, d).Stepped?
  {
    var t := s.z[i].topic;
    Reach(cfg, v, w, did, i, mi, s, t);
    if cfg.bursty && v.multi[i] {
      var k := Slot(v, mi);
      assert SlotAt(v, i) == k;
      assert Hits(v, s.z, i, k, t);
      assert s.bs.Mik[k][t] == CountMik(v, s.z, |s.z|, k, t) && s.bs.Sik[k][t] == CountSik(v, s.z, |s.z|, k, t);
      if s.z[i].r {
        CountHit(v, s.z, |s.z|, i, k, t);
        CountSikLeMik(v, s.z, |s.z|, k, t);
      } else {
        CountGap(v, s.z, |s.z|, i, k, t);
      }
    }
  }

  /**
   * A resampling step (incremental == 0) keeps the burst tables equal to the
   * counts of the assignments: a skip or a held-out token leaves both alone,
   * and an accepted removal followed by update_topic moves the token's counts
   * from its old topic to the sampled one.  The token stays a table event if it
   * is not multi, so the step after it finds the same conditions.
   */
  lemma StepKeepsCounts(cfg: Config, fix: GibbsType, hold: bool, v: DocView, w: nat, did: nat,
                        i: nat, mi: nat, s: Sampler, d: Draws)
    requires StepReady(cfg, v, w, did, i, mi, s) && d.topic < |s.st.NWt| && cfg.bursty
    requires !v.hold[i] && (!v.multi[i] ==> s.z[i].r)
    requires Counts(v, s.z, s.bs, |s.bs.Mik|, |s.st.NWt|)
    requires Step(cfg, fix, hold, 0, v, w, did, i, mi, s, d).Stepped?
    ensures var r := Step(cfg, fix, hold, 0, v, w, did, i, mi, s, d);
            && Counts(v, r.s.z, r.s.bs, |r.s.bs.Mik|, |r.s.st.NWt|)
            && (!v.multi[i] ==> r.s.z[i].r)
  {
    var r := Step(cfg, fix, hold, 0, v, w, did, i, mi, s, d);
    if !(fix == GibbsHold && hold) && !r.skipped {
      Reach(cfg, v, w, did, i, mi, s, s.z[i].topic);
      var rm := Take(cfg, v, w, did, i, mi, s, d, 0);
      assert rm.bs == Decr(v, s.bs, i, mi, s.z[i].topic, if s.z[i].r then w else -1);
      var z1 := s.z[i := s.z[i].(topic := d.topic)];
      var s1 := Sampler(rm.st, rm.td, rm.bs, s.z);
      assert r.s == Install(cfg, v, w, did, i, mi, s1, d);
      var inc := Incr(v, z1, rm.bs, i, mi, d.topic, w, d.burst);
      assert r.s.bs == inc.st && r.s.z == s.z[i := inc.tok];
      ResampleKeepsCounts(v, s.z, s.bs, |s.bs.Mik|, |s.st.NWt|, i, mi, d.topic, w, d.burst);
    }
  }

  /**
   * Resampling a token to its own topic, with the update draws replaying
   * the removal's table events and the burst draw replaying its r bit,
   * leaves the sampler as it was.
   */
  lemma ResampleSameTopic(cfg: Config, fix: GibbsType, hold: bool, v: DocView, w: nat, did: nat, i: nat, mi: nat,
                          s: Sampler, d: Draws)
    requires StepReady(cfg, v, w, did, i, mi, s) && d.topic == s.z[i].topic
    requires BurstReady(cfg, v, s.z, s.bs, i, mi, s.z[i].topic)
    requires !(fix == GibbsHold && hold)
    requires cfg.bursty && !v.multi[i] ==> s.z[i].r
    requires Decide(cfg, s.st, v, s.z, s.bs, i, mi, did, RemoveWid(cfg, s.z[i], w), s.z[i].topic,
                    d.uDoc, d.uWord, 0).Go? ==>
               ApplyOk(cfg, s.st, v, s.bs, i, mi, did, RemoveWid(cfg, s.z[i], w), s.z[i].topic)
    requires Take(cfg, v, w, did, i, mi, s, d, 0).Removed?
    requires d.openDoc == Take(cfg, v, w, did, i, mi, s, d, 0).ud
    requires d.openWord == Take(cfg, v, w, did, i, mi, s, d, 0).uw
    requires d.burst == s.z[i].r
    ensures Step(cfg, fix, hold, 0, v, w, did, i, mi, s, d) == Stepped(s, false)
  {
    RemoveThenUpdate(cfg, s.st, s.td, v, s.z, s.bs, i, mi, did, w, s.z[i].topic, d.uDoc, d.uWord, 0);
    assert s.z[i := s.z[i].(topic := d.topic)] == s.z;
  }

  /**
   * A resampling step that is neither refused nor stopped moves one customer
   * of document `did` from the token's old topic to the sampled one: the
   * document's total is kept and no other document's counts change.
   */
  lemma ResampleMovesCustomer(cfg: Config, v: DocView, w: nat, did: nat, i: nat, mi: nat, s: Sampler, d: Draws)
    requires StepReady(cfg, v, w, did, i, mi, s) && d.topic < |s.st.NWt|
    requires BurstReady(cfg, v, s.z, s.bs, i, mi, s.z[i].topic)
    requires !ApplyFails(cfg, v, w, did, i, mi, s, d, 0) && !Refused(cfg, v, w, did, i, mi, s, d, 0)
    ensures Visit(cfg, 0, v, w, did, i, mi, s, d).Stepped? && !Visit(cfg, 0, v, w, did, i, mi, s, d).skipped
    ensures var r := Visit(cfg, 0, v, w, did, i, mi, s, d).s;
            && r.st.NdT == s.st.NdT
            && (forall t :: 0 <= t < |s.st.NWt| ==>
                  r.st.Ndt[did][t] == s.st.Ndt[did][t] - (if t == s.z[i].topic then 1 else 0) + (if t == d.topic then 1 else 0))
            && (forall e :: 0 <= e < |s.st.Ndt| && e != did ==> r.st.Ndt[e] == s.st.Ndt[e])
  {
    var r := Visit(cfg, 0, v, w, did, i, mi, s, d);
    var rm := Take(cfg, v, w, did, i, mi, s, d, 0);
    assert r.Stepped? && !r.skipped && rm.Removed?;
    var s1 := Sampler(rm.st, rm.td, rm.bs, s.z);
    assert r.s == Install(cfg, v, w, did, i, mi, s1, d);
    Reach(cfg, v, w, did, i, mi, s, s.z[i].topic);
    var u := Update(cfg, rm.st, rm.td, v, s.z[i := s.z[i].(topic := d.topic)], rm.bs, i, mi, did, w, d.topic,
                    d.openDoc, d.openWord, d.burst);
    assert r.s.st == u.st;
    CustomerMoved(s.st, rm.st, u.st, did, RemoveWid(cfg, s.z[i], w), s.z[i].topic,
                  if rm.ud then -1 else 0, if rm.uw then -1 else 0,
                  u.wid, d.topic, if u.docTable then 1 else 0, if u.wordTable then 1 else 0);
  }

  /**
   * The token loop as a recursive reference: Step on tokens i, i + 1, ...
   * below `words`, with the cursor moving past every multi token, until
   * the first failed apply-phase assertion.
   */
  function Pass(cfg: Config, fix: GibbsType, hold: seq<bool>, incremental: int, v: DocView, w: seq<nat>, did: nat,
                words: nat, draws: seq<Draws>, i: nat, mi: nat, s: Sampler): (r: Stepped)
    requires PassReady(cfg, hold, v, w, did, words, draws, i, mi, s)
    decreases words - i, 2
  {
    if i == words then Stepped(s, false)
    else Advance(cfg, fix, hold, incremental, v, w, did, words, draws, i, mi, s)
  }

  /**
   * The reference pass at a token i that is still to be visited: a held-out
   * token (`fix_doc`) is passed over with the state as it is, and any other
   * token is resampled.
   */
  function Advance(cfg: Config, fix: GibbsType, hold: seq<bool>, incremental: int, v: DocView, w: seq<nat>, did: nat,
                   words: nat, draws: seq<Draws>, i: nat, mi: nat, s: Sampler): (r: Stepped)
    requires PassReady(cfg, hold, v, w, did, words, draws, i, mi, s) && i < words
    decreases words - i, 1
  {
    if fix == GibbsHold && hold[i] then
      PassNext(cfg, hold, v, w, did, words, draws, i, mi, s, s);
      Pass(cfg, fix, hold, incremental, v, w, did, words, draws, i + 1,
           if cfg.bursty && v.multi[i] then mi + 1 else mi, s)
    else Resample(cfg, fix, hold, incremental, v, w, did, words, draws, i, mi, s)
  }

  /** The reference pass at a token that is not held out: Step on it, then the pass from i + 1. */
  function Resample(cfg: Config, fix: GibbsType, hold: seq<bool>, incremental: int, v: DocView, w: seq<nat>, did: nat,
                    words: nat, draws: seq<Draws>, i: nat, mi: nat, s: Sampler): (r: Stepped)
    requires PassReady(cfg, hold, v, w, did, words, draws, i, mi, s) && i < words
    decreases words - i, 0
  {
    match Step(cfg, fix, hold[i], incremental, v, w[i], did, i, mi, s, draws[i])
    case Halted => Halted
    case Stepped(next, _) =>
      PassNext(cfg, hold, v, w, did, words, draws, i, mi, s, next);
      Pass(cfg, fix, hold, incremental, v, w, did, words, draws, i + 1,
           if cfg.bursty && v.multi[i] then mi + 1 else mi, next)
  }

  /** The inputs of the token loop fit the state, and the cursor stands at token i. */
  predicate PassReady(cfg: Config, hold: seq<bool>, v: DocView, w: seq<nat>, did: nat, words: nat, draws: seq<Draws>,
                      i: nat, mi: nat, s: Sampler)
  {
    && Ready(cfg, v, s) && did < |s.st.Ndt| && i <= words <= |s.z|
    && |w| == |s.z| && |hold| == |s.z| && |draws| == |s.z|
    && (forall j :: 0 <= j < |w| ==> w[j] < |s.st.Nwt|)
    && (forall j :: 0 <= j < |draws| ==> draws[j].topic < |s.st.NWt|)
    && mi == (if cfg.bursty then Rank(v.multi, i) else 0)
  }

  /** A token that keeps the state well formed moves the loop on to the next token. */
  lemma PassNext(cfg: Config, hold: seq<bool>, v: DocView, w: seq<nat>, did: nat, words: nat, draws: seq<Draws>,
                 i: nat, mi: nat, s: Sampler, next: Sampler)
    requires PassReady(cfg, hold, v, w, did, words, draws, i, mi, s) && i < words
    requires Ready(cfg, v, next) && SameShape(s.st, next.st) && |next.z| == |s.z|
    ensures PassReady(cfg, hold, v, w, did, words, draws, i + 1, if cfg.bursty && v.multi[i] then mi + 1 else mi, next)
  {
  }

  /**
   * gibbs_lda's loop over the first `words` tokens of one document.  It
   * returns the final state, the cursor, the number of tokens completed and
   * whether an apply-phase assertion stopped the pass.
   */
  method Sweep(cfg: Config, fix: GibbsType, hold: seq<bool>, incremental: int, v: DocView, w: seq<nat>, did: nat,
               words: nat, s0: Sampler, draws: seq<Draws>)
    returns (s: Sampler, mi: nat, done: nat, halted: bool)
    requires Ready(cfg, v, s0) && did < |s0.st.Ndt| && words <= |s0.z|
    requires |w| == |s0.z| && |hold| == |s0.z| && |draws| == |s0.z|
    requires forall j :: 0 <= j < |w| ==> w[j] < |s0.st.Nwt|
    requires forall j :: 0 <= j < |draws| ==> draws[j].topic < |s0.st.NWt|
    ensures Ready(cfg, v, s) && SameShape(s0.st, s.st)
    ensures done <= words && (halted <==> done < words)
    ensures halted ==> incremental <= 0
    ensures mi == (if cfg.bursty then Rank(v.multi, done) else 0)
    ensures |s.z| == |s0.z| && forall l :: done <= l < |s0.z| ==> s.z[l] == s0.z[l]
    ensures incremental < 0 ==> s.z == s0.z
    ensures fix == GibbsHold ==> forall l :: 0 <= l < |s0.z| && hold[l] ==> s.z[l] == s0.z[l]
    ensures var p := Pass(cfg, fix, hold, incremental, v, w, did, words, draws, 0, 0, s0);
            (halted <==> p.Halted?) && (!halted ==> s == p.s)
  {
    s, mi, done, halted := RunPass(cfg, fix, hold, incremental, v, w, did, words, s0, draws);
  }

  /** The loop of Sweep: it keeps what holds after the completed tokens and ends where the reference pass ends. */
  method RunPass(cfg: Config, fix: GibbsType, hold: seq<bool>, incremental: int, v: DocView, w: seq<nat>, did: nat,
                 words: nat, s0: Sampler, draws: seq<Draws>)
    returns (s: Sampler, mi: nat, done: nat, halted: bool)
    requires Swept(cfg, fix, hold, incremental, v, w, did, s0, draws, 0, 0, s0) && words <= |s0.z|
    ensures done <= words && (halted <==> done < words) && (halted ==> incremental <= 0)
    ensures Swept(cfg, fix, hold, incremental, v, w, did, s0, draws, done, mi, s)
    ensures Pass(cfg, fix, hold, incremental, v, w, did, words, draws, 0, 0, s0)
            == (if halted then Halted else Stepped(s, false))
  {
    s := s0;
    mi := 0;
    halted := false;
    done := 0;
    while done < words
      invariant done <= words && !halted
      invariant Swept(cfg, fix, hold, incremental, v, w, did, s0, draws, done, mi, s)
      invariant Pass(cfg, fix, hold, incremental, v, w, did, words, draws, 0, 0, s0)
                == Pass(cfg, fix, hold, incremental, v, w, did, words, draws, done, mi, s)
    {
      var next, mi', stop := SweepOne(cfg, fix, hold, incremental, v, w, did, words, s0, draws, done, mi, s);
      if stop {
        halted := true;
        break;
      }
      s, mi := next, mi';
      done := done + 1;
    }
    if !halted {
      PassEnd(cfg, fix, hold, incremental, v, w, did, words, draws, mi, s);
    }
  }

  /** A pass with no token left ends in the state it has. */
  lemma PassEnd(cfg: Config, fix: GibbsType, hold: seq<bool>, incremental: int, v: DocView, w: seq<nat>, did: nat,
                words: nat, draws: seq<Draws>, mi: nat, s: Sampler)
    requires PassReady(cfg, hold, v, w, did, words, draws, words, mi, s)
    ensures Pass(cfg, fix, hold, incremental, v, w, did, words, draws, words, mi, s) == Stepped(s, false)
  {
  }

  /**
   * Step on token i, as the token loop runs it: the outcome is the one the
   * reference pass takes at token i.
   */
  method StepAt(cfg: Config, fix: GibbsType, hold: seq<bool>, incremental: int, v: DocView, w: seq<nat>, did: nat,
                words: nat, draws: seq<Draws>, i: nat, mi: nat, s: Sampler)
    returns (r: Stepped)
    requires PassReady(cfg, hold, v, w, did, words, draws, i, mi, s) && i < words
    ensures r.Stepped? ==> Ready(cfg, v, r.s) && SameShape(s.st, r.s.st) && |r.s.bs.Mik| == |s.bs.Mik|
    ensures r.Stepped? ==> |r.s.z| == |s.z| && forall l :: 0 <= l < |s.z| && l != i ==> r.s.z[l] == s.z[l]
    ensures r.Halted? ==> incremental <= 0
    ensures fix == GibbsHold && hold[i] ==> r == Stepped(s, false)
    ensures r.Stepped? && incremental < 0 ==> r.s.z == s.z
    ensures r.Halted? ==> Pass(cfg, fix, hold, incremental, v, w, did, words, draws, i, mi, s).Halted?
    ensures r.Stepped? ==>
              Pass(cfg, fix, hold, incremental, v, w, did, words, draws, i, mi, s)
              == Pass(cfg, fix, hold, incremental, v, w, did, words, draws, i + 1,
                      if cfg.bursty && v.multi[i] then mi + 1 else mi, r.s)
  {
    r := Step(cfg, fix, hold[i], incremental, v, w[i], did, i, mi, s, draws[i]);
    assert Pass(cfg, fix, hold, incremental, v, w, did, words, draws, i, mi, s)
           == Advance(cfg, fix, hold, incremental, v, w, did, words, draws, i, mi, s);
    if !(fix == GibbsHold && hold[i]) {
      assert Advance(cfg, fix, hold, incremental, v, w, did, words, draws, i, mi, s)
             == Resample(cfg, fix, hold, incremental, v, w, did, words, draws, i, mi, s);
    }
    if r.Stepped? {
      PassNext(cfg, hold, v, w, did, words, draws, i, mi, s, r.s);
    }
  }

  /** What holds after the first i tokens of a pass that has not stopped. */
  predicate Swept(cfg: Config, fix: GibbsType, hold: seq<bool>, incremental: int, v: DocView, w: seq<nat>, did: nat,
                  s0: Sampler, draws: seq<Draws>, i: nat, mi: nat, s: Sampler)
  {
    && Ready(cfg, v, s0) && did < |s0.st.Ndt| && i <= |s0.z|
    && |w| == |s0.z| && |hold| == |s0.z| && |draws| == |s0.z|
    && (forall j :: 0 <= j < |w| ==> w[j] < |s0.st.Nwt|)
    && (forall j :: 0 <= j < |draws| ==> draws[j].topic < |s0.st.NWt|)
    && Ready(cfg, v, s) && SameShape(s0.st, s.st) && |s.bs.Mik| == |s0.bs.Mik|
    && |s.z| == |s0.z| && (forall l :: i <= l < |s0.z| ==> s.z[l] == s0.z[l])
    && mi == (if cfg.bursty then Rank(v.multi, i) else 0)
    && (incremental < 0 ==> s.z == s0.z)
    && (fix == GibbsHold ==> forall l :: 0 <= l < i && hold[l] ==> s.z[l] == s0.z[l])
  }

  /** One pass of the token loop: Step on token i, then the cursor moves past a multi token. */
  method SweepOne(cfg: Config, fix: GibbsType, hold: seq<bool>, incremental: int, v: DocView, w: seq<nat>, did: nat,
                  words: nat, s0: Sampler, draws: seq<Draws>, i: nat, mi: nat, s: Sampler)
    returns (next: Sampler, mi': nat, stop: bool)
    requires Swept(cfg, fix, hold, incremental, v, w, did, s0, draws, i, mi, s) && i < words <= |s0.z|
    ensures stop ==> incremental <= 0
    ensures !stop ==> Swept(cfg, fix, hold, incremental, v, w, did, s0, draws, i + 1, mi', next)
    ensures stop ==> Pass(cfg, fix, hold, incremental, v, w, did, words, draws, i, mi, s).Halted?
    ensures !stop ==> Pass(cfg, fix, hold, incremental, v, w, did, words, draws, i, mi, s)
                      == Pass(cfg, fix, hold, incremental, v, w, did, words, draws, i + 1, mi', next)
  {
    var r := StepAt(cfg, fix, hold, incremental, v, w, did, words, draws, i, mi, s);
    if r.Halted? {
      return s, mi, true;
    }
    next, stop := r.s, false;
    mi' := if cfg.bursty && v.multi[i] then mi + 1 else mi;
    SweptNext(cfg, fix, hold, incremental, v, w, did, s0, draws, i, mi, s, next);
  }

  /** A completed token extends what holds after the first i tokens. */
  lemma SweptNext(cfg: Config, fix: GibbsType, hold: seq<bool>, incremental: int, v: DocView, w: seq<nat>, did: nat,
                  s0: Sampler, draws: seq<Draws>, i: nat, mi: nat, s: Sampler, next: Sampler)
    requires Swept(cfg, fix, hold, incremental, v, w, did, s0, draws, i, mi, s) && i < |s0.z|
    requires Ready(cfg, v, next) && SameShape(s.st, next.st) && |next.bs.Mik| == |s.bs.Mik|
    requires |next.z| == |s.z| && forall l :: 0 <= l < |s.z| && l != i ==> next.z[l] == s.z[l]
    requires fix == GibbsHold && hold[i] ==> next == s
    requires incremental < 0 ==> next.z == s.z
    ensures Swept(cfg, fix, hold, incremental, v, w, did, s0, draws, i + 1,
                  if cfg.bursty && v.multi[i] then mi + 1 else mi, next)
  {
  }
}
